=== FILE: README.md ===
# GLSL interaction renderer: light loop, draw batches and shader initialisation

This project models the GLSL interaction path of the Doom 3 renderer
(`neo/renderer/draw_glsl.cpp`) and proves properties of the model in Dafny.
That path is a deterministic scheduler. For every visible light it emits an
ordered stream of OpenGL commands:

- set up the stencil buffer;
- draw shadow volumes and lit interactions in a fixed cross order;
- optionally draw translucent surfaces with a different depth test;
- restore the pipeline state the rest of the renderer relies on.

The model mirrors that structure.

- `GlTypes` holds the data model:
  - images, per-draw parameter blocks (`DrawInteraction`), surfaces with their sub-draws;
  - the fixed texture units 0–5 and attribute slots 8–11;
  - the `Cmd` datatype. Each OpenGL call, and each write to back-end state, is one constructor of `Cmd`.
- `Pipeline` is an interpreter. `Step`/`Run` thread a `PipeState` record through a command trace. The record holds:
  - the tracked and active texture unit, and the image on each unit;
  - the active program and the enabled attribute arrays;
  - the client arrays;
  - the depth test given to GL and the back end's depth function;
  - the stencil function;
  - the scissor, the vertex pointers, the model matrix and the uniform table.

  `Holds(s, t, P)` states that `P` holds at every command of `t`, in the state that command is issued in.
- `Traces` provides `Filter` over sequences. Order properties are stated as equalities of filtered traces.
- `InteractionDraw` models:
  - the uniform loading of `RB_GLSL_SelectInteractionUniforms`, including the three-way vertex-colour switch;
  - one sub-draw of `RB_GLSL_DrawInteraction`;
  - the per-surface part of `RB_GLSL_CreateDrawInteractions`.
- `InteractionBatch` models the batch-wide setup and teardown of `RB_GLSL_CreateDrawInteractions`.
- `LightLoop` models `RB_GLSL_DrawInteractions`:
  - light skipping and stencil setup;
  - the shadow/interaction pass order, with and without the shadow vertex program;
  - the translucent sub-pass that switches the back end's depth function;
  - the frame entry and exit.
- `ShaderInit` models the decision logic of initialisation:
  - the shader-loading guard and the attribute bindings at link time;
  - the sampler units;
  - the short-circuit link/validate test of `RB_GLSL_InitShaders`;
  - the `allowGLSLPath` flag set by `R_ReloadGLSLPrograms_f` and `R_GLSL_Init`.

Three collaborators are opaque commands:

- `RB_StencilShadowPass` becomes `ShadowPass(casters)`. A non-empty caster list leaves the stencil set to the shadow test. The pass is taken to have no other effect: no client array, scissor, program, depth state or texture binding is changed by it.
- `RB_CreateSingleDrawInteractions` is given as its result: each surface carries its list of sub-draws.
- An image's `Bind` binds the image on the active unit.

Cvars (`r_useScissor`, `r_useShadowVertexProgram`, `r_skipTranslucent`) and the viewport are parameters. So are the driver's link and validate answers, the shader files that exist, and whether GL is initialised.

Three behaviours of the code are worth stating plainly, because a reader might expect otherwise:

- Unit 0 after teardown. The teardown nulls units 5 down to 1 and leaves the last bump image on unit 0 (`draw_glsl.cpp:195-211`). `InteractionBatch.BatchEnd` states this.
- Link and validate. The test is `!link && !validate` (`draw_glsl.cpp:471`, `481`). Initialisation fails only when both link and validate fail, and validation is asked for only after a failed link. `ShaderInit.InitShaders` and `ShaderInit.ValidateOnlyAfterFailedLink` state this.
- The `allowGLSLPath` flag. `R_ReloadGLSLPrograms_f` sets `allowGLSLPath` to true whatever the initialisation result (`draw_glsl.cpp:501-505`). `ShaderInit.ReloadAllowsRegardless` states this.

## Model

| member | source | states |
|---|---|---|
| InteractionDraw.VertexColorPairExact | neo/renderer/draw_glsl.cpp:83-96 | each vertex-colour mode gives exactly one (modulate, add) pair: ignore (0,1), modulate (1,0), inverse modulate (-1,1); no other pair is ever produced |
| InteractionDraw.UniformsWriteAll | neo/renderer/draw_glsl.cpp:70-100 | every per-draw uniform is written with its expected value: the colour pair for the two colour uniforms, the draw's parameters for the rest |
| InteractionDraw.UniformTableComplete | neo/renderer/draw_glsl.cpp:70-100 | the loaded uniform table has an entry for every uniform of the interaction program, holding its expected value |
| InteractionDraw.UniformsOnly | neo/renderer/draw_glsl.cpp:63-101 | the uniform loader issues nothing but uniform writes, each carrying the expected value for its name |
| InteractionDraw.RunUniforms | neo/renderer/draw_glsl.cpp:63-101 | with the interaction program active, loading replaces the uniform table by the expected table and changes nothing else; otherwise nothing changes |
| InteractionDraw.RunUnitBind | neo/renderer/draw_glsl.cpp:50-55 | selecting a unit without client state and binding an image sets the tracked and active unit and puts the image on that unit only |
| InteractionDraw.RunBinds | neo/renderer/draw_glsl.cpp:115-133 | the five binds put bump, falloff, light, diffuse and specular images on units 0–4 and leave unit 4 selected |
| InteractionDraw.ReadyAfterBinds | neo/renderer/draw_glsl.cpp:108-136 | after uniforms and surface state are loaded, the binds make the state fully ready for that draw and keep every batch-wide setting |
| InteractionDraw.RunDraw | neo/renderer/draw_glsl.cpp:136 | the draw call changes no state, and it is correct exactly when the state is ready for it |
| InteractionDraw.SubDrawReady | neo/renderer/draw_glsl.cpp:108-136 | inside an active batch with the surface loaded, the draw of a sub-draw sees its uniforms, its five images and its surface's arrays |
| InteractionDraw.SubDrawDraws | neo/renderer/draw_glsl.cpp:108-136 | a sub-draw issues exactly one draw, of itself |
| InteractionDraw.SubDrawEffect | neo/renderer/draw_glsl.cpp:108-136 | a sub-draw keeps program, arrays, depth state, pointers and model matrix, and leaves its own bump image on unit 0 |
| InteractionDraw.RunSurfaceSetup | neo/renderer/draw_glsl.cpp:172-181 | setting a surface's pointers and model matrix loads that surface and keeps every other part of the batch state |
| InteractionDraw.SubDrawsBump | neo/renderer/draw_glsl.cpp:183-185 | after a surface's sub-draws, unit 0 holds the bump image of the last sub-draw, or its old image when there were none |
| InteractionDraw.SurfaceReady | neo/renderer/draw_glsl.cpp:169-186 | each surface's pointers and model matrix are in place at every one of its draws |
| InteractionDraw.SurfacesEffect | neo/renderer/draw_glsl.cpp:169-186 | the surface loop keeps the batch-wide state and leaves the last scheduled bump image on unit 0 |
| InteractionDraw.SurfacesReady | neo/renderer/draw_glsl.cpp:169-186 | over a whole surface chain, every draw is issued in a state ready for it |
| InteractionDraw.SurfacesDraws | neo/renderer/draw_glsl.cpp:169-186 | the draws of a surface chain are exactly the scheduled sub-draws, surface by surface, in order |
| InteractionDraw.SurfacesCmds | neo/renderer/draw_glsl.cpp:169-186 | a surface chain only sets pointers, model matrix and uniforms, binds images, selects only units 0–4, and draws |
| InteractionBatch.RunEnable | neo/renderer/draw_glsl.cpp:153-163 | the enable sequence sets the depth state, selects the interaction program and turns on attribute arrays 8–11 and the colour array |
| InteractionBatch.RunSetup | neo/renderer/draw_glsl.cpp:152-167 | the batch setup leaves the enabled state plus the specular table on unit 5, selected |
| InteractionBatch.SetupActivates | neo/renderer/draw_glsl.cpp:152-167 | given the back end's depth function, the setup puts every batch-wide setting a draw needs in effect |
| InteractionBatch.RunDisable | neo/renderer/draw_glsl.cpp:188-192 | the teardown turns off attribute arrays 8–11 and the colour array and nothing else |
| InteractionBatch.RunUnbind | neo/renderer/draw_glsl.cpp:194-208 | units 5, 4, 3, 2, 1 are bound to null, unit 0 is untouched, and unit 1 is left selected |
| InteractionBatch.RunReset | neo/renderer/draw_glsl.cpp:210-213 | the tracked unit is forgotten then unit 0 is selected, and no program is left active |
| InteractionBatch.RunTeardown | neo/renderer/draw_glsl.cpp:188-213 | the whole teardown has exactly the combined effect of disabling, unbinding and resetting |
| InteractionBatch.BatchTrace | neo/renderer/draw_glsl.cpp:146-150 | a batch issues no command exactly when its surface list is empty |
| InteractionBatch.EmptyBatchNoEffect | neo/renderer/draw_glsl.cpp:148-150 | an empty surface list changes no state and draws nothing |
| InteractionBatch.RunBatch | neo/renderer/draw_glsl.cpp:146-214 | a non-empty batch is setup, then the surface chain, then teardown, in effect |
| InteractionBatch.BatchEnd | neo/renderer/draw_glsl.cpp:146-214 | after a non-empty batch: no program, unit 0 tracked and active, arrays 8–11 and colour off, units 1–5 null, unit 0 holding the last bump image, controller state unchanged |
| InteractionBatch.BatchReady | neo/renderer/draw_glsl.cpp:146-214 | every draw of a batch is issued in a state ready for it |
| InteractionBatch.BatchDraws | neo/renderer/draw_glsl.cpp:146-214 | a batch draws exactly its scheduled sub-draws, in order |
| InteractionBatch.BatchCmds | neo/renderer/draw_glsl.cpp:146-214 | of the commands this file issues, a batch never touches stencil, scissor, the back end's depth function, the shadow program or the texture-coordinate array |
| InteractionBatch.SetupSwitches | neo/renderer/draw_glsl.cpp:152-167 | the state switches of the setup are exactly the enable sequence |
| InteractionBatch.TeardownSwitches | neo/renderer/draw_glsl.cpp:188-213 | the state switches of the teardown are the disable sequence followed by deselecting the program |
| InteractionBatch.BatchSwitches | neo/renderer/draw_glsl.cpp:146-214 | in a non-empty batch each state switch happens once: enable sequence, then disable sequence, then the program deselected; no surface switches state |
| LightLoop.ScissorCovers | neo/renderer/draw_glsl.cpp:256-261 | the scissor box covers exactly the light's inclusive rectangle offset by the viewport origin |
| LightLoop.LightSkipped | neo/renderer/draw_glsl.cpp:236-248 | a light issues no command exactly when it is a fog or blend light or all three interaction lists are empty; a skipped light leaves the depth function as it was |
| LightLoop.SkippedLightsIgnored | neo/renderer/draw_glsl.cpp:233-248 | the loop's trace is the same with skipped lights removed from the list |
| LightLoop.LightStencil | neo/renderer/draw_glsl.cpp:252-269 | a light with shadows records its scissor rectangle, sets the scissor box when scissoring is on, and clears the stencil; one without shadows does none of this |
| LightLoop.LitStencil | neo/renderer/draw_glsl.cpp:252-298 | of a lit light's commands, the stencil-setup ones are exactly its setup when it has shadows and none otherwise |
| LightLoop.PassesPasses | neo/renderer/draw_glsl.cpp:271-285 | the passes run: global shadows, local interactions, local shadows, global interactions |
| LightLoop.TranslucentPasses | neo/renderer/draw_glsl.cpp:287-295 | the translucent sub-pass draws the translucent interactions, or nothing when translucency is skipped |
| LightLoop.LitPassOrder | neo/renderer/draw_glsl.cpp:252-298 | a lit light's shadow passes and draws come in the fixed cross order, followed by the translucent draws unless skipped |
| LightLoop.LightPassOrder | neo/renderer/draw_glsl.cpp:233-298 | any light's shadow passes and draws are exactly its expected pass list, empty when the light is skipped |
| LightLoop.PassOrderIgnoresShadowProgram | neo/renderer/draw_glsl.cpp:271-285 | the pass order does not depend on whether the shadow vertex program is used |
| LightLoop.ShadowProgramInserts | neo/renderer/draw_glsl.cpp:271-285 | with the shadow vertex program, the passes are those without it plus shadow-program selects and one final program reset |
| LightLoop.ShadowPassesUseProgram | neo/renderer/draw_glsl.cpp:271-279 | with the shadow vertex program, each shadow pass runs under the shadow program and the passes end with no program active |
| LightLoop.LightsPassOrder | neo/renderer/draw_glsl.cpp:233-298 | the loop's shadow passes and draws are the lights' pass lists concatenated in light order |
| LightLoop.FramePassOrder | neo/renderer/draw_glsl.cpp:222-305 | the frame's shadow passes and draws are the same as the loop's |
| LightLoop.LightMoves | neo/renderer/draw_glsl.cpp:287-297 | a light takes the back end's depth function from its entry value to the value after its translucent sub-pass |
| LightLoop.FinalDepthIs | neo/renderer/draw_glsl.cpp:287-298 | after the loop the depth function is EQUAL if translucency is drawn and some light was lit, and unchanged otherwise |
| LightLoop.FrameMoves | neo/renderer/draw_glsl.cpp:222-305 | the whole frame leaves the back end's depth function at that final value |
| LightLoop.FrameReady | neo/renderer/draw_glsl.cpp:222-305 | every draw of the frame is issued in a state ready for it: program, arrays, depth test, surface, uniforms and images |
| LightLoop.TranslucentDraws | neo/renderer/draw_glsl.cpp:287-295 | translucent draws see the stencil test passing and the depth function LESS |
| LightLoop.TranslucentDrawsLess | neo/renderer/draw_glsl.cpp:287-295 | translucent draws are issued with the stencil test passing and GL's depth test set to LESS |
| LightLoop.UnshadowedLightDraws | neo/renderer/draw_glsl.cpp:264-269 | a light without shadows draws every interaction with the stencil test passing |
| LightLoop.FrameEnd | neo/renderer/draw_glsl.cpp:300-304 | after the frame the stencil test passes, unit 0 is tracked and active, and the texture-coordinate array is on again |
| LightLoop.LightsCmds | neo/renderer/draw_glsl.cpp:233-298 | nothing inside the loop touches the texture-coordinate array |
| LightLoop.FrameDrawsWithoutTexCoord | neo/renderer/draw_glsl.cpp:227-228 | every draw of the frame is issued with the texture-coordinate array off |
| ShaderInit.LoadShader | neo/renderer/draw_glsl.cpp:317-363 | a shader object is produced exactly when its file under `gl2progs/` exists, GL is initialised and the type is vertex or fragment; its source is the file's text up to the first NUL character, which `strcpy` and the length-less source call stop at |
| ShaderInit.CStringExact | neo/renderer/draw_glsl.cpp:336-337 | the copied text is the whole file when it has no NUL, and otherwise exactly the longest NUL-free prefix |
| ShaderInit.NulEndsSource | neo/renderer/draw_glsl.cpp:336-348 | a file holding `ab`, NUL, `cd` yields a vertex shader whose source is `ab` |
| ShaderInit.NoShaderWithout | neo/renderer/draw_glsl.cpp:328-342 | a missing file, or GL not being initialised, yields no shader |
| ShaderInit.LinkBindsAttributes | neo/renderer/draw_glsl.cpp:372-388 | linking binds slots 8–11 exactly for the interaction program and none for the shadow program, then links |
| ShaderInit.LinkedSlotsAreEnabled | neo/renderer/draw_glsl.cpp:381-386 | the slots bound at link time are exactly the generic arrays a batch enables |
| ShaderInit.SamplerUnit | neo/renderer/draw_glsl.cpp:454-462 | each sampler's unit is the one it is set to |
| ShaderInit.SamplerBindingsDistinct | neo/renderer/draw_glsl.cpp:454-462 | no sampler is set twice and no two samplers share a unit |
| ShaderInit.SamplersSeeTheirImages | neo/renderer/draw_glsl.cpp:454-462 | at a ready draw each sampler's unit holds the image meant for that sampler |
| ShaderInit.InitShaders | neo/renderer/draw_glsl.cpp:465-488 | initialisation succeeds exactly when each program either links or, failing that, validates |
| ShaderInit.ValidateOnlyAfterFailedLink | neo/renderer/draw_glsl.cpp:471-481 | validation is asked for only right after a link of the same program, and only when that link failed |
| ShaderInit.FailedLinkValidated | neo/renderer/draw_glsl.cpp:471-481 | a failed link is always followed by validation of that program |
| ShaderInit.LookupWhenUsable | neo/renderer/draw_glsl.cpp:471-475 | the interaction program's uniforms are looked up exactly when it is usable |
| ShaderInit.ShadowAfterInteraction | neo/renderer/draw_glsl.cpp:471-485 | the shadow program is loaded only after a usable interaction program, and its light origin is looked up only when both are usable |
| ShaderInit.ReloadPrograms | neo/renderer/draw_glsl.cpp:495-506 | reload enables the GLSL path and reports success exactly when both programs are usable |
| ShaderInit.GlslInit | neo/renderer/draw_glsl.cpp:510-519 | initialisation disables the GLSL path and keeps availability as it was |
| ShaderInit.ReloadAllowsRegardless | neo/renderer/draw_glsl.cpp:501-505 | the configuration after reload does not depend on the shader outcomes, and reload after init re-enables the path |

## Left out

- `neo/sys/linux/main.cpp`: platform bootstrap, threads, processes and OS probing, outside the renderer.
- Floating-point contents. Uniform values, matrices, colours and vertex data are not computed: a sub-draw's parameters are one tag.
- Vertex pointers. Strides and vertex-cache offsets are left out. A pointer is modelled as naming the surface it reads from.
- Uniform and sampler locations. The lookups by name are foreign calls. Uniforms are addressed by name, and samplers by the unit they are set to.
- The program switch during the sampler set-up. `RB_GLSL_GetUniformLocations` selects the program and then resets it to none; this happens at init time and is not part of the draw state.
- `GL_SelectTexture` is not part of this model. Its body is in another file. It is modelled as always selecting the unit together with its client state; any redundancy check it has is left out.
- `RB_StencilShadowPass` is not part of this model. A shadow pass over a non-empty caster list is taken to leave the stencil test in its shadowed state, and to issue nothing except that stencil effect. Any change it makes to the client arrays (the texture-coordinate array included), the scissor, the program, the depth state or the texture bindings is not modelled; an empty pass changes nothing.
- LightLoop.LightsCmds: "nothing inside the loop touches the texture-coordinate array" covers the commands this file issues; it holds for the real loop only if `RB_StencilShadowPass` leaves that array as it found it.
- LightLoop.FrameDrawsWithoutTexCoord: rests on the same assumption that `RB_StencilShadowPass` does not re-enable the texture-coordinate array.
- LightLoop.LightStencil: the "exactly" for a light with shadows counts only the scissor and stencil-clear commands this file issues; it assumes `RB_StencilShadowPass` sets no scissor and clears no stencil of its own.
- LightLoop.LitStencil: rests on the same assumption that `RB_StencilShadowPass` sets no scissor and clears no stencil.
- `RB_CreateSingleDrawInteractions` and `RB_DrawElementsWithCounters` are not part of this model. The sub-draws a surface produces are an input. The expansion at line 185 is taken to issue nothing except `RB_GLSL_DrawInteraction` calls, one per sub-draw.
- InteractionBatch.BatchCmds: "never touches stencil, scissor, …" covers the commands this file issues; it holds for the real batch only under the assumption that the layer expansion at line 185 issues nothing but `RB_GLSL_DrawInteraction` calls.
- InteractionBatch.BatchSwitches: "no surface switches state" rests on the same assumption about the layer expansion at line 185.
- InteractionBatch.BatchEnd: "controller state unchanged" rests on the same assumption about the layer expansion at line 185.
- `LightLoop.FrameReady`, `LightLoop.TranslucentDrawsLess`, `InteractionBatch.BatchReady`, `InteractionDraw.SurfacesReady` and `InteractionDraw.SurfaceReady` require every sub-draw to belong to its surface. That is what the unmodelled layer expansion produces.
- Logging. `common->Printf` and `RB_LogComment` are left out; they issue no GL command.
- `backEnd.vLight`. The assignment at line 234 is not modelled as a command. It does decide the draws: the layer expansion reads the current light to build each sub-draw's falloff and projection images and its projection rows. The model captures that by giving each light's surfaces their own sub-draws, already built for that light.
- `ShaderInit.LoadShader`: the file read and copy happen even without GL, for data dumps. The read itself and the stack copy are not modelled; the result is the shader object or none, and its source is the text up to the first NUL.
- Driver results. Shader compilation, linking and validation are boolean inputs, not computed.
- The GL context. Rasterisation, stencil arithmetic and other GL semantics are not modelled.

=== FILE: gl_types.dfy ===
/** Data model of the GLSL interaction renderer: the entities of one frame's
    light loop (images, per-draw parameter blocks, surfaces) and the commands
    the loop issues.  OpenGL calls, back-end state writes and calls into
    collaborators whose bodies are not modelled are all constructors of `Cmd`. */
module GlTypes {

  // Fixed texture units, a protocol contract with the interaction shader.
  const BumpUnit: int := 0
  const FalloffUnit: int := 1
  const ProjectionUnit: int := 2
  const DiffuseUnit: int := 3
  const SpecularUnit: int := 4
  const SpecularTableUnit: int := 5

  // Fixed generic vertex-attribute slots bound at link time.
  const TexCoordSlot: int := 8
  const TangentSlot: int := 9
  const BitangentSlot: int := 10
  const NormalSlot: int := 11

  /** An image as seen by the draw loop: the null image, the global specular
      lookup table, or any other texture, identified opaquely. */
  datatype Image = NullImage | SpecularTableImage | Texture(id: nat)

  /** How per-vertex colour combines with the lit result. */
  datatype VertexColor = SvcIgnore | SvcModulate | SvcInverseModulate

  /** A four-component uniform constant; only the integral constants
      0, 1 and -1 are ever written by value. */
  datatype Vec4 = Vec4(x: int, y: int, z: int, w: int)

  /** The parameter block of one sub-draw.  `surf` is the surface it belongs
      to; `params` tags its floating-point vectors and matrices, which are not
      computed here. */
  datatype DrawInteraction = DrawInteraction(
    surf: nat,
    params: nat,
    vertexColor: VertexColor,
    bumpImage: Image,
    lightFalloffImage: Image,
    lightImage: Image,
    diffuseImage: Image,
    specularImage: Image)

  /** A surface interacting with the current light, together with the
      sub-draws the (unmodelled) layer expansion produces for it. */
  datatype Surface = Surface(id: nat, subDraws: seq<DrawInteraction>)

  /** Every sub-draw of a surface refers back to that surface. */
  predicate WellFormedSurface(s: Surface) {
    forall d :: d in s.subDraws ==> d.surf == s.id
  }

  predicate WellFormedSurfaces(surfs: seq<Surface>) {
    forall s :: s in surfs ==> WellFormedSurface(s)
  }

  /** A screen rectangle with inclusive corners. */
  datatype Rect = Rect(x1: int, y1: int, x2: int, y2: int)

  /** The arguments of a scissor call: origin and size. */
  datatype Box = Box(x: int, y: int, width: int, height: int)

  datatype Program = NoProgram | InteractionProgram | ShadowProgram

  /** Depth comparison carried by the back end and passed to the state setter. */
  datatype DepthFunc = DepthAlways | DepthEqual | DepthLess

  /** Stencil comparison: always pass, or the test the shadow pass leaves. */
  datatype StencilFunc = StencilAlways | StencilShadowTest

  /** Fixed-function client arrays toggled by the loop. */
  datatype ClientArray = ColorArray | TexCoordArray

  /** The vertex arrays whose pointers are set per surface. */
  datatype VertexArray = ColorPointer | AttribPointer(slot: int) | PositionPointer

  /** The per-draw uniforms of the interaction program. */
  datatype UniformName =
    | LightOrigin | ViewOrigin
    | LightProjectionS | LightProjectionT | LightProjectionQ | LightFalloff
    | BumpMatrixS | BumpMatrixT
    | DiffuseMatrixS | DiffuseMatrixT
    | SpecularMatrixS | SpecularMatrixT
    | ColorModulate | ColorAdd
    | DiffuseColor | SpecularColor

  /** A uniform value: either taken from a parameter block (tagged) or a constant. */
  datatype UValue = Param(tag: nat) | Const(v: Vec4)

  datatype Cmd =
    | SelectUnitNoClient(unit: int)       // select a texture unit, client state untouched
    | SelectUnit(unit: int)               // select a texture unit together with its client state
    | ForgetUnit                          // mark the tracked texture unit as unknown (-1)
    | Bind(image: Image)                  // bind an image on the active unit
    | BindNull                            // bind the null image on the active unit
    | UseProgram(program: Program)
    | EnableAttrib(slot: int)
    | DisableAttrib(slot: int)
    | EnableClient(clientArray: ClientArray)
    | DisableClient(clientArray: ClientArray)
    | GLState(depth: DepthFunc)           // additive blend, depth writes masked, given depth test
    | Pointer(vertexArray: VertexArray, surface: nat)
    | ModelMatrix(surface: nat)
    | Uniform(name: UniformName, value: UValue)
    | Draw(din: DrawInteraction)          // indexed draw of din's surface geometry
    | ShadowPass(casters: seq<nat>)       // stencil shadow volumes of the given casters
    | RecordScissor(rect: Rect)           // back end's current scissor rectangle
    | Scissor(box: Box)
    | ClearStencil
    | StencilFuncAlways
    | SetDepthFunc(depth: DepthFunc)      // back end's depth function for later batches
}

=== FILE: interaction_batch.dfy ===
/** One interaction batch: the pipeline set up once for a chain of surfaces,
    the surfaces drawn, and the pipeline torn down again.  An empty chain
    issues nothing at all. */
module InteractionBatch {
  import opened GlTypes
  import opened Traces
  import opened Pipeline
  import opened InteractionDraw

  // ---------------------------------------------------------------------
  // Setup

  /** Blend and depth state, the interaction program, the four generic
      attribute arrays and the colour array. */
  function EnableTrace(depth: DepthFunc): seq<Cmd> {
    [ GLState(depth), UseProgram(InteractionProgram),
      EnableAttrib(TexCoordSlot), EnableAttrib(TangentSlot),
      EnableAttrib(BitangentSlot), EnableAttrib(NormalSlot),
      EnableClient(ColorArray) ]
  }

  /** Batch-wide setup, issued once before the first surface. */
  function SetupTrace(depth: DepthFunc): seq<Cmd> {
    EnableTrace(depth) + UnitBind(SpecularTableUnit, SpecularTableImage)
  }

  /** The state the setup leaves. */
  function AfterSetup(s: PipeState, depth: DepthFunc): PipeState {
    s.(glDepth := depth, program := InteractionProgram,
       attribs := s.attribs + {TexCoordSlot, TangentSlot, BitangentSlot, NormalSlot},
       colorArray := true,
       tmu := SpecularTableUnit, active := SpecularTableUnit,
       bound := s.bound[SpecularTableUnit := SpecularTableImage])
  }

  lemma RunEnable(s: PipeState, depth: DepthFunc)
    ensures Run(s, EnableTrace(depth)) == s.(glDepth := depth, program := InteractionProgram,
      attribs := s.attribs + {TexCoordSlot, TangentSlot, BitangentSlot, NormalSlot},
      colorArray := true)
  {
    var a := [GLState(depth), UseProgram(InteractionProgram)];
    var b := [EnableAttrib(TexCoordSlot), EnableAttrib(TangentSlot),
              EnableAttrib(BitangentSlot), EnableAttrib(NormalSlot), EnableClient(ColorArray)];
    assert a + b == EnableTrace(depth);
    RunAppend(s, a, b);
    RunTwo(s, GLState(depth), UseProgram(InteractionProgram));
    var s2 := s.(glDepth := depth, program := InteractionProgram);
    RunFive(s2, EnableAttrib(TexCoordSlot), EnableAttrib(TangentSlot),
      EnableAttrib(BitangentSlot), EnableAttrib(NormalSlot), EnableClient(ColorArray));
    StepsEnable(s2);
    AddFour(s.attribs, TexCoordSlot, TangentSlot, BitangentSlot, NormalSlot);
  }

  lemma StepsEnable(s: PipeState)
    ensures Step(Step(Step(Step(Step(s, EnableAttrib(TexCoordSlot)), EnableAttrib(TangentSlot)),
              EnableAttrib(BitangentSlot)), EnableAttrib(NormalSlot)), EnableClient(ColorArray))
         == s.(attribs := s.attribs + {TexCoordSlot} + {TangentSlot} + {BitangentSlot} + {NormalSlot},
               colorArray := true)
  {
  }

  lemma AddFour(a: set<int>, w: int, x: int, y: int, z: int)
    ensures a + {w} + {x} + {y} + {z} == a + {w, x, y, z}
  {
  }

  lemma RemoveFour(a: set<int>, w: int, x: int, y: int, z: int)
    ensures a - {w} - {x} - {y} - {z} == a - {w, x, y, z}
  {
  }

  lemma RunSetup(s: PipeState, depth: DepthFunc)
    ensures Run(s, SetupTrace(depth)) == AfterSetup(s, depth)
  {
    RunEnable(s, depth);
    RunAppend(s, EnableTrace(depth), UnitBind(SpecularTableUnit, SpecularTableImage));
    RunUnitBind(Run(s, EnableTrace(depth)), SpecularTableUnit, SpecularTableImage);
  }

  /** With the back end's depth function passed in, the setup puts the whole
      batch-wide configuration in effect. */
  lemma SetupActivates(s: PipeState, depth: DepthFunc)
    requires s.depthFunc == depth
    ensures BatchActive(AfterSetup(s, depth))
  {
  }

  // ---------------------------------------------------------------------
  // Teardown

  /** Select unit `u` without touching client state, then unbind its texture. */
  function UnitNull(u: int): seq<Cmd> {
    [SelectUnitNoClient(u), BindNull]
  }

  lemma RunUnitNull(s: PipeState, u: int)
    ensures Run(s, UnitNull(u)) == s.(tmu := u, active := u, bound := s.bound[u := NullImage])
  {
    var t := UnitNull(u);
    assert Run(Step(s, t[0]), t[1..]) == Step(Step(s, t[0]), t[1]);
  }

  /** The attribute arrays and the colour array switched off. */
  function DisableTrace(): seq<Cmd> {
    [ DisableAttrib(TexCoordSlot), DisableAttrib(TangentSlot),
      DisableAttrib(BitangentSlot), DisableAttrib(NormalSlot),
      DisableClient(ColorArray) ]
  }

  /** Units 5 down to 1 unbound; unit 0 keeps the last bump image. */
  function UnbindTrace(): seq<Cmd> {
    UnitNull(SpecularTableUnit) + UnitNull(SpecularUnit) + UnitNull(DiffuseUnit)
    + UnitNull(ProjectionUnit) + UnitNull(FalloffUnit)
  }

  /** The tracked unit forgotten, unit 0 selected with its client state, no program. */
  function ResetTrace(): seq<Cmd> {
    [ForgetUnit, SelectUnit(BumpUnit), UseProgram(NoProgram)]
  }

  /** Batch-wide teardown, issued once after the last surface. */
  function TeardownTrace(): seq<Cmd> {
    DisableTrace() + UnbindTrace() + ResetTrace()
  }

  /** The state the teardown leaves. */
  function AfterTeardown(s: PipeState): PipeState {
    s.(attribs := s.attribs - {TexCoordSlot, TangentSlot, BitangentSlot, NormalSlot},
       colorArray := false,
       bound := s.bound[SpecularTableUnit := NullImage][SpecularUnit := NullImage]
                       [DiffuseUnit := NullImage][ProjectionUnit := NullImage]
                       [FalloffUnit := NullImage],
       tmu := BumpUnit, active := BumpUnit, program := NoProgram)
  }

  lemma RunDisable(s: PipeState)
    ensures Run(s, DisableTrace()) == s.(attribs := s.attribs - {TexCoordSlot, TangentSlot, BitangentSlot, NormalSlot},
                                          colorArray := false)
  {
    var a := s.attribs;
    RemoveFour(a, TexCoordSlot, TangentSlot, BitangentSlot, NormalSlot);
    RunDisableSteps(s);
  }

  lemma RunDisableSteps(s: PipeState)
    ensures Run(s, DisableTrace()) == s.(attribs := s.attribs - {TexCoordSlot} - {TangentSlot} - {BitangentSlot} - {NormalSlot},
                                          colorArray := false)
  {
    RunFive(s, DisableAttrib(TexCoordSlot), DisableAttrib(TangentSlot),
      DisableAttrib(BitangentSlot), DisableAttrib(NormalSlot), DisableClient(ColorArray));
    StepsDisable(s);
  }

  lemma StepsDisable(s: PipeState)
    ensures Step(Step(Step(Step(Step(s, DisableAttrib(TexCoordSlot)), DisableAttrib(TangentSlot)),
              DisableAttrib(BitangentSlot)), DisableAttrib(NormalSlot)), DisableClient(ColorArray))
         == s.(attribs := s.attribs - {TexCoordSlot} - {TangentSlot} - {BitangentSlot} - {NormalSlot},
               colorArray := false)
  {
  }

  lemma RunUnbind(s: PipeState)
    ensures Run(s, UnbindTrace()) == s.(tmu := FalloffUnit, active := FalloffUnit,
      bound := s.bound[SpecularTableUnit := NullImage][SpecularUnit := NullImage]
                      [DiffuseUnit := NullImage][ProjectionUnit := NullImage]
                      [FalloffUnit := NullImage])
  {
    var n5 := UnitNull(SpecularTableUnit);
    var n4 := UnitNull(SpecularUnit);
    var n3 := UnitNull(DiffuseUnit);
    var n2 := UnitNull(ProjectionUnit);
    var n1 := UnitNull(FalloffUnit);
    RunAppend(s, n5 + n4 + n3 + n2, n1);
    RunAppend(s, n5 + n4 + n3, n2);
    RunAppend(s, n5 + n4, n3);
    RunAppend(s, n5, n4);
    var s1 := Run(s, n5);
    RunUnitNull(s, SpecularTableUnit);
    var s2 := Run(s1, n4);
    RunUnitNull(s1, SpecularUnit);
    var s3 := Run(s2, n3);
    RunUnitNull(s2, DiffuseUnit);
    var s4 := Run(s3, n2);
    RunUnitNull(s3, ProjectionUnit);
    RunUnitNull(s4, FalloffUnit);
  }

  lemma RunReset(s: PipeState)
    ensures Run(s, ResetTrace()) == s.(tmu := BumpUnit, active := BumpUnit, program := NoProgram)
  {
    var t := ResetTrace();
    var s1 := Step(s, t[0]);
    var s2 := Step(s1, t[1]);
    var s3 := Step(s2, t[2]);
    assert Run(s2, t[2..]) == s3;
    assert Run(s1, t[1..]) == s3;
  }

  lemma RunTeardown(s: PipeState)
    ensures Run(s, TeardownTrace()) == AfterTeardown(s)
  {
    var a := DisableTrace();
    var b := UnbindTrace();
    var c := ResetTrace();
    RunAppend3(s, a, b, c);
    RunDisable(s);
    RunUnbind(Run(s, a));
    RunReset(Run(Run(s, a), b));
  }

  // ---------------------------------------------------------------------
  // The batch

  /** The commands one call of the batch issues for a chain of surfaces,
      with `depth` the back end's depth function at the call. */
  function BatchTrace(depth: DepthFunc, surfs: seq<Surface>): (r: seq<Cmd>)
    ensures |surfs| == 0 <==> r == []
  {
    if |surfs| == 0 then [] else Wrap(depth, SurfacesTrace(surfs))
  }

  /** A batch body between the setup and the teardown. */
  function Wrap(depth: DepthFunc, body: seq<Cmd>): (r: seq<Cmd>)
    ensures |r| > 0
  {
    SetupTrace(depth) + body + TeardownTrace()
  }

  /** An empty chain leaves the pipeline exactly as it was. */
  lemma EmptyBatchNoEffect(s: PipeState, depth: DepthFunc)
    ensures Run(s, BatchTrace(depth, [])) == s
    ensures Holds(s, BatchTrace(depth, []), ReadyAtDraw)
  {
  }

  /** The state a non-empty batch leaves, in terms of the state its surfaces leave. */
  lemma RunBatch(s: PipeState, depth: DepthFunc, surfs: seq<Surface>)
    requires |surfs| > 0
    ensures Run(s, BatchTrace(depth, surfs)) ==
      AfterTeardown(Run(AfterSetup(s, depth), SurfacesTrace(surfs)))
  {
    RunAppend3(s, SetupTrace(depth), SurfacesTrace(surfs), TeardownTrace());
    RunSetup(s, depth);
    RunTeardown(Run(AfterSetup(s, depth), SurfacesTrace(surfs)));
  }

  /** What the teardown leaves after a setup and a body that kept the batch state. */
  lemma TeardownAfterBody(s: PipeState, depth: DepthFunc, s2: PipeState)
    requires BodyPreserves(AfterSetup(s, depth), s2)
    ensures var r := AfterTeardown(s2);
      && r.program == NoProgram && r.tmu == BumpUnit && r.active == BumpUnit
      && r.attribs == s.attribs - {TexCoordSlot, TangentSlot, BitangentSlot, NormalSlot}
      && !r.colorArray
      && BoundOn(r, FalloffUnit) == NullImage && BoundOn(r, ProjectionUnit) == NullImage
      && BoundOn(r, DiffuseUnit) == NullImage && BoundOn(r, SpecularUnit) == NullImage
      && BoundOn(r, SpecularTableUnit) == NullImage
      && BoundOn(r, BumpUnit) == BoundOn(s2, BumpUnit)
      && SameControllerState(s, r) && r.glDepth == depth
  {
    assert s2.attribs == s.attribs + {TexCoordSlot, TangentSlot, BitangentSlot, NormalSlot};
  }

  /** After a non-empty batch: no program, unit 0 selected and tracked, the
      four attribute arrays and the colour array off, units 1 to 5 unbound,
      unit 0 still holding the last bump image drawn; the depth test the
      batch set and the controller's state are left in place. */
  lemma BatchEnd(s: PipeState, depth: DepthFunc, surfs: seq<Surface>)
    requires |surfs| > 0
    ensures var r := Run(s, BatchTrace(depth, surfs));
      && r.program == NoProgram && r.tmu == BumpUnit && r.active == BumpUnit
      && r.attribs == s.attribs - {TexCoordSlot, TangentSlot, BitangentSlot, NormalSlot}
      && !r.colorArray
      && BoundOn(r, FalloffUnit) == NullImage && BoundOn(r, ProjectionUnit) == NullImage
      && BoundOn(r, DiffuseUnit) == NullImage && BoundOn(r, SpecularUnit) == NullImage
      && BoundOn(r, SpecularTableUnit) == NullImage
      && BoundOn(r, BumpUnit) == LastBump(Schedule(surfs), BoundOn(s, BumpUnit))
      && SameControllerState(s, r) && r.glDepth == depth
  {
    RunBatch(s, depth, surfs);
    var s1 := AfterSetup(s, depth);
    SurfacesEffect(s1, surfs);
    TeardownAfterBody(s, depth, Run(s1, SurfacesTrace(surfs)));
  }

  /** Every draw a batch issues finds the pipeline ready for its sub-draw,
      provided the batch is handed the back end's depth function. */
  lemma BatchReady(s: PipeState, depth: DepthFunc, surfs: seq<Surface>)
    requires s.depthFunc == depth && WellFormedSurfaces(surfs)
    ensures Holds(s, BatchTrace(depth, surfs), ReadyAtDraw)
  {
    if |surfs| > 0 {
      var a := SetupTrace(depth);
      var b := SurfacesTrace(surfs);
      var c := TeardownTrace();
      RunSetup(s, depth);
      SetupActivates(s, depth);
      SurfacesReady(AfterSetup(s, depth), surfs);
      SetupCmds(depth);
      HoldsNoDraw(s, a);
      TeardownCmds();
      HoldsNoDraw(Run(Run(s, a), b), c);
      HoldsAppend3(s, a, b, c, ReadyAtDraw);
    }
  }

  /** A batch issues exactly the draws of its schedule, in order. */
  lemma BatchDraws(depth: DepthFunc, surfs: seq<Surface>)
    ensures Filter(BatchTrace(depth, surfs), IsDraw) == DrawCmds(Schedule(surfs))
  {
    if |surfs| > 0 {
      var a := SetupTrace(depth);
      var b := SurfacesTrace(surfs);
      var c := TeardownTrace();
      SetupCmds(depth);
      TeardownCmds();
      FilterNone(a, IsDraw);
      FilterNone(c, IsDraw);
      SurfacesDraws(surfs);
      FilterAppend(a, b, IsDraw);
      FilterAppend(a + b, c, IsDraw);
      assert Filter(a + b, IsDraw) == Filter(b, IsDraw);
    }
  }

  // ---------------------------------------------------------------------
  // What a batch may issue

  /** Commands a batch never issues: those of the light controller and the
      shadow pass. */
  predicate BatchCmd(c: Cmd) {
    && !c.ShadowPass? && !c.ClearStencil? && !c.StencilFuncAlways?
    && !c.SetDepthFunc? && !c.Scissor? && !c.RecordScissor?
    && c != UseProgram(ShadowProgram)
    && !(c.EnableClient? && c.clientArray == TexCoordArray)
    && !(c.DisableClient? && c.clientArray == TexCoordArray)
  }

  lemma SetupCmds(depth: DepthFunc)
    ensures forall c :: c in SetupTrace(depth) ==> !IsDraw(c) && BatchCmd(c)
  {
  }

  lemma TeardownCmds()
    ensures forall c :: c in TeardownTrace() ==> !IsDraw(c) && BatchCmd(c)
  {
  }

  /** A batch issues nothing that belongs to the light controller or the shadow pass. */
  lemma BatchCmds(depth: DepthFunc, surfs: seq<Surface>)
    ensures forall c :: c in BatchTrace(depth, surfs) ==> BatchCmd(c)
  {
    if |surfs| > 0 {
      SetupCmds(depth);
      SurfacesCmds(surfs);
      TeardownCmds();
    }
  }

  /** Commands that change the program, the depth state or an array's enablement. */
  predicate Switch(c: Cmd) {
    c.GLState? || c.UseProgram? || c.EnableAttrib? || c.DisableAttrib? || c.EnableClient? || c.DisableClient?
  }

  /** Filtered to its switching commands, the setup is its enabling prefix. */
  lemma SetupSwitches(depth: DepthFunc)
    ensures Filter(SetupTrace(depth), Switch) == EnableTrace(depth)
  {
    FilterAppend(EnableTrace(depth), UnitBind(SpecularTableUnit, SpecularTableImage), Switch);
    FilterAll(EnableTrace(depth), Switch);
    FilterNone(UnitBind(SpecularTableUnit, SpecularTableImage), Switch);
  }

  lemma UnbindSwitches()
    ensures Filter(UnbindTrace(), Switch) == []
  {
    var u := UnbindTrace();
    assert forall c :: c in u ==> c.SelectUnitNoClient? || c.BindNull?;
    FilterNone(u, Switch);
  }

  lemma ResetSwitches()
    ensures Filter(ResetTrace(), Switch) == [UseProgram(NoProgram)]
  {
    var r := ResetTrace();
    assert r[1..][1..][1..] == [];
  }

  /** Filtered to its switching commands, the teardown disables the arrays
      and then deselects the program. */
  lemma TeardownSwitches()
    ensures Filter(TeardownTrace(), Switch) == DisableTrace() + [UseProgram(NoProgram)]
  {
    var d, u, r := DisableTrace(), UnbindTrace(), ResetTrace();
    FilterAppend3(d, u, r, Switch);
    FilterAll(d, Switch);
    UnbindSwitches();
    ResetSwitches();
    EmptyMiddle(d, [UseProgram(NoProgram)]);
  }

  lemma EmptyMiddle<T>(a: seq<T>, b: seq<T>)
    ensures a + [] + b == a + b
  {
  }

  /** The switching commands of a non-empty batch, in the order issued: the
      depth state and the interaction program once, each attribute array and
      the colour array enabled once and disabled once, and the program
      deselected once at the end.  Nothing a surface issues switches state. */
  lemma BatchSwitches(depth: DepthFunc, surfs: seq<Surface>)
    requires |surfs| > 0
    ensures Filter(BatchTrace(depth, surfs), Switch)
            == EnableTrace(depth) + DisableTrace() + [UseProgram(NoProgram)]
  {
    var body := SurfacesTrace(surfs);
    SurfacesCmds(surfs);
    FilterNone(body, Switch);
    FilterAppend(SetupTrace(depth) + body, TeardownTrace(), Switch);
    FilterAppend(SetupTrace(depth), body, Switch);
    SetupSwitches(depth);
    TeardownSwitches();
  }
}

=== FILE: interaction_draw.dfy ===
/** The per-light interaction batch: uniform selection for one sub-draw, the
    texture-unit protocol of one sub-draw, and the batch loop that sets up the
    pipeline once, walks the surfaces and tears the pipeline down again. */
module InteractionDraw {
  import opened GlTypes
  import opened Traces
  import opened Pipeline

  const Zero: Vec4 := Vec4(0, 0, 0, 0)
  const One: Vec4 := Vec4(1, 1, 1, 1)
  const NegOne: Vec4 := Vec4(-1, -1, -1, -1)

  /** The (colorModulate, colorAdd) uniform pair. */
  datatype ColorPair = ColorPair(modulate: Vec4, add: Vec4)

  /** The constant pair a vertex-colour mode selects. */
  function VertexColorPair(mode: VertexColor): ColorPair {
    match mode
    case SvcIgnore => ColorPair(Zero, One)
    case SvcModulate => ColorPair(One, Zero)
    case SvcInverseModulate => ColorPair(NegOne, One)
  }

  /** Each mode has its own pair, and no pair other than these three is ever produced. */
  lemma VertexColorPairExact(mode: VertexColor)
    ensures mode == SvcIgnore <==> VertexColorPair(mode) == ColorPair(Zero, One)
    ensures mode == SvcModulate <==> VertexColorPair(mode) == ColorPair(One, Zero)
    ensures mode == SvcInverseModulate <==> VertexColorPair(mode) == ColorPair(NegOne, One)
    ensures VertexColorPair(mode) in {ColorPair(Zero, One), ColorPair(One, Zero), ColorPair(NegOne, One)}
  {
  }

  /** The value uniform `n` must hold while `din` is drawn: the colour pair
      for the two colour-combine uniforms, `din`'s parameter block otherwise. */
  function ExpectedUniform(din: DrawInteraction, n: UniformName): UValue {
    if n == ColorModulate then Const(VertexColorPair(din.vertexColor).modulate)
    else if n == ColorAdd then Const(VertexColorPair(din.vertexColor).add)
    else Param(din.params)
  }

  /** The per-draw uniforms in the order one sub-draw writes them. */
  const UniformOrder: seq<UniformName> := [
    LightOrigin, ViewOrigin,
    LightProjectionS, LightProjectionT, LightProjectionQ, LightFalloff,
    BumpMatrixS, BumpMatrixT, DiffuseMatrixS, DiffuseMatrixT, SpecularMatrixS, SpecularMatrixT,
    ColorModulate, ColorAdd,
    DiffuseColor, SpecularColor]

  /** One write per name of `names`, in order, each with the value `din` needs. */
  function UniformWrites(din: DrawInteraction, names: seq<UniformName>): (r: seq<Cmd>)
    ensures |r| == |names|
    decreases |names|
  {
    if |names| == 0 then []
    else [Uniform(names[0], ExpectedUniform(din, names[0]))] + UniformWrites(din, names[1..])
  }

  /** The uniform writes of one sub-draw. */
  function UniformsTrace(din: DrawInteraction): (r: seq<Cmd>)
    ensures |r| == 16
  {
    UniformWrites(din, UniformOrder)
  }

  /** Every sub-draw writes every per-draw uniform with the value `din` needs. */
  lemma UniformsWriteAll(din: DrawInteraction, n: UniformName)
    ensures Uniform(n, ExpectedUniform(din, n)) in UniformsTrace(din)
  {
    OrderCoversAll(n);
    WritesCover(din, UniformOrder, n);
  }

  /** Every sub-draw writes the colour multiplier its vertex-colour mode selects. */
  lemma UniformsSelectColorModulate(din: DrawInteraction)
    ensures Uniform(ColorModulate, Const(VertexColorPair(din.vertexColor).modulate)) in UniformsTrace(din)
  {
    UniformsWriteAll(din, ColorModulate);
  }

  /** Every sub-draw writes the colour offset its vertex-colour mode selects. */
  lemma UniformsSelectColorAdd(din: DrawInteraction)
    ensures Uniform(ColorAdd, Const(VertexColorPair(din.vertexColor).add)) in UniformsTrace(din)
  {
    UniformsWriteAll(din, ColorAdd);
  }

  /** The uniform table the interaction program must hold while `din` is drawn. */
  function UniformTable(din: DrawInteraction): map<UniformName, UValue> {
    map n | n in UniformOrder :: ExpectedUniform(din, n)
  }

  /** The table names every per-draw uniform, each with the value `din` needs. */
  lemma UniformTableComplete(din: DrawInteraction, n: UniformName)
    ensures n in UniformTable(din) && UniformTable(din)[n] == ExpectedUniform(din, n)
  {
    OrderCoversAll(n);
  }

  /** Every per-draw uniform holds the value `din` needs. */
  predicate UniformsLoaded(s: PipeState, din: DrawInteraction) {
    s.uniforms == UniformTable(din)
  }

  /** The uniform table after writes `t` are applied, in order, to `m`. */
  function Written(m: map<UniformName, UValue>, t: seq<Cmd>): map<UniformName, UValue>
    decreases |t|
  {
    if |t| == 0 then m
    else if t[0].Uniform? then Written(m[t[0].name := t[0].value], t[1..])
    else Written(m, t[1..])
  }

  /** A run of uniform writes changes only the uniform table, and only while
      the interaction program is active; it then changes it as `Written` says. */
  lemma {:induction false} RunWrites(s: PipeState, t: seq<Cmd>)
    requires forall c :: c in t ==> c.Uniform?
    ensures Run(s, t) == if s.program == InteractionProgram then s.(uniforms := Written(s.uniforms, t)) else s
    decreases |t|
  {
    if |t| > 0 {
      assert t[0] in t;
      assert forall c :: c in t[1..] ==> c in t;
      RunWrites(Step(s, t[0]), t[1..]);
    }
  }

  /** Writes for `names` are uniform writes, each with the value `din` needs. */
  lemma {:induction false} WritesAreUniforms(din: DrawInteraction, names: seq<UniformName>)
    ensures forall c :: c in UniformWrites(din, names) ==> c.Uniform? && c.value == ExpectedUniform(din, c.name)
    decreases |names|
  {
    if |names| > 0 {
      WritesAreUniforms(din, names[1..]);
    }
  }

  /** A sub-draw writes only uniforms, each with the value `din` needs. */
  lemma UniformsOnly(din: DrawInteraction)
    ensures forall c :: c in UniformsTrace(din) ==> c.Uniform? && c.value == ExpectedUniform(din, c.name)
  {
    WritesAreUniforms(din, UniformOrder);
  }

  /** Every name of `names` is written with the value `din` needs. */
  lemma {:induction false} WritesCover(din: DrawInteraction, names: seq<UniformName>, n: UniformName)
    requires n in names
    ensures Uniform(n, ExpectedUniform(din, n)) in UniformWrites(din, names)
    decreases |names|
  {
    if names[0] != n {
      WritesCover(din, names[1..], n);
    }
  }

  /** After writes for `names`, a name holds the value `din` needs if it is
      one of `names`, and keeps its old entry otherwise. */
  lemma {:induction false} WrittenValue(m: map<UniformName, UValue>, din: DrawInteraction, names: seq<UniformName>, n: UniformName)
    ensures var w := Written(m, UniformWrites(din, names));
      && (n in w <==> n in m || n in names)
      && (n in w ==> w[n] == if n in names then ExpectedUniform(din, n) else m[n])
    decreases |names|
  {
    if |names| > 0 {
      var t := UniformWrites(din, names);
      assert t[1..] == UniformWrites(din, names[1..]);
      var m1 := m[names[0] := ExpectedUniform(din, names[0])];
      WrittenValue(m1, din, names[1..], n);
      assert n in names <==> n == names[0] || n in names[1..];
    }
  }

  /** Every per-draw uniform appears in the write order. */
  lemma OrderCoversAll(n: UniformName)
    ensures n in UniformOrder
  {
    match n
    case LightOrigin => assert UniformOrder[0] == n;
    case ViewOrigin => assert UniformOrder[1] == n;
    case LightProjectionS => assert UniformOrder[2] == n;
    case LightProjectionT => assert UniformOrder[3] == n;
    case LightProjectionQ => assert UniformOrder[4] == n;
    case LightFalloff => assert UniformOrder[5] == n;
    case BumpMatrixS => assert UniformOrder[6] == n;
    case BumpMatrixT => assert UniformOrder[7] == n;
    case DiffuseMatrixS => assert UniformOrder[8] == n;
    case DiffuseMatrixT => assert UniformOrder[9] == n;
    case SpecularMatrixS => assert UniformOrder[10] == n;
    case SpecularMatrixT => assert UniformOrder[11] == n;
    case ColorModulate => assert UniformOrder[12] == n;
    case ColorAdd => assert UniformOrder[13] == n;
    case DiffuseColor => assert UniformOrder[14] == n;
    case SpecularColor => assert UniformOrder[15] == n;
  }

  /** The sub-draw's uniform writes change nothing but the uniform table,
      which they fill with exactly `din`'s values while the interaction
      program is active. */
  lemma RunUniforms(s: PipeState, din: DrawInteraction)
    ensures Run(s, UniformsTrace(din)) ==
      if s.program == InteractionProgram then s.(uniforms := UniformTable(din)) else s
  {
    UniformsOnly(din);
    RunWrites(s, UniformsTrace(din));
    WrittenTable(s.uniforms, din);
  }

  /** Whatever the table held before, writes for a list naming every uniform
      leave exactly `din`'s values. */
  lemma WrittenCovering(m: map<UniformName, UValue>, din: DrawInteraction, names: seq<UniformName>)
    requires forall n: UniformName :: n in names
    ensures Written(m, UniformWrites(din, names)) == map n | n in names :: ExpectedUniform(din, n)
  {
    var w := Written(m, UniformWrites(din, names));
    forall n: UniformName
      ensures n in w && w[n] == ExpectedUniform(din, n)
    {
      WrittenValue(m, din, names, n);
    }
  }

  /** Whatever the table held before, a sub-draw's writes leave exactly `din`'s values. */
  lemma WrittenTable(m: map<UniformName, UValue>, din: DrawInteraction)
    ensures Written(m, UniformsTrace(din)) == UniformTable(din)
  {
    forall n: UniformName ensures n in UniformOrder {
      OrderCoversAll(n);
    }
    WrittenCovering(m, din, UniformOrder);
  }

  // ---------------------------------------------------------------------
  // Readiness of the pipeline at a draw

  /** The batch-wide setup is in effect: interaction program, specular table
      on its unit, the four generic attribute arrays and the colour array
      enabled, and the depth test the back end asks for. */
  predicate BatchActive(s: PipeState) {
    && s.program == InteractionProgram
    && BoundOn(s, SpecularTableUnit) == SpecularTableImage
    && {TexCoordSlot, TangentSlot, BitangentSlot, NormalSlot} <= s.attribs
    && s.colorArray
    && s.glDepth == s.depthFunc
  }

  /** Every vertex array and the model matrix refer to surface `id`. */
  predicate SurfaceLoaded(s: PipeState, id: nat) {
    && s.modelMatrix == id
    && PointerOf(s, ColorPointer) == id
    && PointerOf(s, AttribPointer(NormalSlot)) == id
    && PointerOf(s, AttribPointer(BitangentSlot)) == id
    && PointerOf(s, AttribPointer(TangentSlot)) == id
    && PointerOf(s, AttribPointer(TexCoordSlot)) == id
    && PointerOf(s, PositionPointer) == id
  }

  /** Everything the interaction shader reads while `din` is drawn is `din`'s. */
  predicate Ready(s: PipeState, din: DrawInteraction) {
    && BatchActive(s)
    && SurfaceLoaded(s, din.surf)
    && UniformsLoaded(s, din)
    && BoundOn(s, BumpUnit) == din.bumpImage
    && BoundOn(s, FalloffUnit) == din.lightFalloffImage
    && BoundOn(s, ProjectionUnit) == din.lightImage
    && BoundOn(s, DiffuseUnit) == din.diffuseImage
    && BoundOn(s, SpecularUnit) == din.specularImage
  }

  /** A draw command is issued only in a state ready for its sub-draw. */
  predicate ReadyAtDraw(s: PipeState, c: Cmd) {
    c.Draw? ==> Ready(s, c.din)
  }

  /** A trace without draws cannot issue a draw in an unready state. */
  lemma HoldsNoDraw(s: PipeState, t: seq<Cmd>)
    requires forall c :: c in t ==> !c.Draw?
    ensures Holds(s, t, ReadyAtDraw)
  {
    HoldsVacuous(s, t, ReadyAtDraw);
  }

  predicate IsDraw(c: Cmd) {
    c.Draw?
  }

  /** The draw commands a list of sub-draws should produce, one each, in order. */
  function DrawCmds(ds: seq<DrawInteraction>): seq<Cmd>
    decreases |ds|
  {
    if |ds| == 0 then [] else [Draw(ds[0])] + DrawCmds(ds[1..])
  }

  lemma {:induction false} DrawCmdsAppend(a: seq<DrawInteraction>, b: seq<DrawInteraction>)
    ensures DrawCmds(a + b) == DrawCmds(a) + DrawCmds(b)
    decreases |a|
  {
    if |a| == 0 {
      assert a + b == b;
    } else {
      assert (a + b)[0] == a[0];
      assert (a + b)[1..] == a[1..] + b;
      DrawCmdsAppend(a[1..], b);
    }
  }

  /** The bump image unit 0 is left holding after `ds`, starting from `prior`. */
  function LastBump(ds: seq<DrawInteraction>, prior: Image): Image {
    if |ds| == 0 then prior else ds[|ds| - 1].bumpImage
  }

  /** The parts of the state a batch body (surface setup and sub-draws) never changes. */
  predicate BodyPreserves(s: PipeState, r: PipeState) {
    && SameControllerState(s, r)
    && r.program == s.program
    && r.attribs == s.attribs
    && r.colorArray == s.colorArray
    && r.glDepth == s.glDepth
    && BoundOn(r, SpecularTableUnit) == BoundOn(s, SpecularTableUnit)
  }

  // ---------------------------------------------------------------------
  // One sub-draw

  /** Select texture unit `u` without touching client state, then bind `img` on it. */
  function UnitBind(u: int, img: Image): seq<Cmd> {
    [SelectUnitNoClient(u), Bind(img)]
  }

  lemma RunUnitBind(s: PipeState, u: int, img: Image)
    ensures Run(s, UnitBind(u, img)) == s.(tmu := u, active := u, bound := s.bound[u := img])
  {
    var t := UnitBind(u, img);
    assert Run(Step(s, t[0]), t[1..]) == Step(Step(s, t[0]), t[1]);
  }

  /** The five per-surface textures, bound to their fixed units in order. */
  function BindsTrace(din: DrawInteraction): seq<Cmd> {
    UnitBind(BumpUnit, din.bumpImage)
    + UnitBind(FalloffUnit, din.lightFalloffImage)
    + UnitBind(ProjectionUnit, din.lightImage)
    + UnitBind(DiffuseUnit, din.diffuseImage)
    + UnitBind(SpecularUnit, din.specularImage)
  }

  lemma RunBinds(s: PipeState, din: DrawInteraction)
    ensures Run(s, BindsTrace(din)) == s.(tmu := SpecularUnit, active := SpecularUnit,
      bound := s.bound[BumpUnit := din.bumpImage][FalloffUnit := din.lightFalloffImage]
                      [ProjectionUnit := din.lightImage][DiffuseUnit := din.diffuseImage]
                      [SpecularUnit := din.specularImage])
  {
    var b0 := UnitBind(BumpUnit, din.bumpImage);
    var b1 := UnitBind(FalloffUnit, din.lightFalloffImage);
    var b2 := UnitBind(ProjectionUnit, din.lightImage);
    var b3 := UnitBind(DiffuseUnit, din.diffuseImage);
    var b4 := UnitBind(SpecularUnit, din.specularImage);
    RunAppend(s, b0 + b1 + b2 + b3, b4);
    RunAppend(s, b0 + b1 + b2, b3);
    RunAppend(s, b0 + b1, b2);
    RunAppend(s, b0, b1);
    var s1 := Run(s, b0);
    RunUnitBind(s, BumpUnit, din.bumpImage);
    var s2 := Run(s1, b1);
    RunUnitBind(s1, FalloffUnit, din.lightFalloffImage);
    var s3 := Run(s2, b2);
    RunUnitBind(s2, ProjectionUnit, din.lightImage);
    var s4 := Run(s3, b3);
    RunUnitBind(s3, DiffuseUnit, din.diffuseImage);
    RunUnitBind(s4, SpecularUnit, din.specularImage);
  }

  /** Binding the five textures of `din` after its uniforms makes the pipeline ready for it. */
  lemma ReadyAfterBinds(s: PipeState, din: DrawInteraction)
    requires BatchActive(s) && SurfaceLoaded(s, din.surf) && UniformsLoaded(s, din)
    ensures Ready(Run(s, BindsTrace(din)), din)
    ensures BodyPreserves(s, Run(s, BindsTrace(din)))
    ensures Run(s, BindsTrace(din)).modelMatrix == s.modelMatrix
    ensures Run(s, BindsTrace(din)).pointers == s.pointers
  {
    RunBinds(s, din);
  }

  lemma BindsAreNotDraws(din: DrawInteraction)
    ensures forall c :: c in BindsTrace(din) ==> !IsDraw(c) && !c.Uniform?
  {
  }

  lemma RunDraw(s: PipeState, din: DrawInteraction)
    ensures Run(s, [Draw(din)]) == s
    ensures Holds(s, [Draw(din)], ReadyAtDraw) <==> Ready(s, din)
  {
  }

  /** One sub-draw: its uniforms, its five textures, then exactly one draw. */
  function SubDrawTrace(din: DrawInteraction): seq<Cmd> {
    UniformsTrace(din) + BindsTrace(din) + [Draw(din)]
  }

  /** The state one sub-draw leaves: its uniform writes, the five units
      bound to `din`'s images, and unit 4 selected. */
  function AfterSubDraw(s: PipeState, din: DrawInteraction): PipeState {
    var s1 := if s.program == InteractionProgram then s.(uniforms := UniformTable(din)) else s;
    s1.(tmu := SpecularUnit, active := SpecularUnit,
        bound := s1.bound[BumpUnit := din.bumpImage][FalloffUnit := din.lightFalloffImage]
                         [ProjectionUnit := din.lightImage][DiffuseUnit := din.diffuseImage]
                         [SpecularUnit := din.specularImage])
  }

  lemma RunSubDraw(s: PipeState, din: DrawInteraction)
    ensures Run(s, SubDrawTrace(din)) == AfterSubDraw(s, din)
  {
    var u := UniformsTrace(din);
    var b := BindsTrace(din);
    var dr := [Draw(din)];
    RunUniforms(s, din);
    var s1 := Run(s, u);
    RunBinds(s1, din);
    RunDraw(Run(s1, b), din);
    RunAppend3(s, u, b, dr);
  }

  /** A sub-draw leaves unit 0 holding its bump image and keeps the batch
      state, the vertex pointers and the model matrix. */
  lemma SubDrawEffect(s: PipeState, din: DrawInteraction)
    ensures BodyPreserves(s, Run(s, SubDrawTrace(din)))
    ensures Run(s, SubDrawTrace(din)).pointers == s.pointers
    ensures Run(s, SubDrawTrace(din)).modelMatrix == s.modelMatrix
    ensures BoundOn(Run(s, SubDrawTrace(din)), BumpUnit) == din.bumpImage
  {
    RunSubDraw(s, din);
    AfterSubDrawKeeps(s, din);
  }

  lemma AfterSubDrawKeeps(s: PipeState, din: DrawInteraction)
    ensures var r := AfterSubDraw(s, din);
      && BodyPreserves(s, r) && r.pointers == s.pointers && r.modelMatrix == s.modelMatrix
      && BoundOn(r, BumpUnit) == din.bumpImage
  {
  }

  /** Inside a batch whose surface is loaded, a sub-draw issues its draw in a
      state ready for it. */
  lemma SubDrawReady(s: PipeState, din: DrawInteraction)
    requires BatchActive(s) && SurfaceLoaded(s, din.surf)
    ensures Holds(s, SubDrawTrace(din), ReadyAtDraw)
  {
    var u := UniformsTrace(din);
    var b := BindsTrace(din);
    var dr := [Draw(din)];
    RunUniforms(s, din);
    var s1 := Run(s, u);
    ReadyAfterBinds(s1, din);
    RunDraw(Run(s1, b), din);
    UniformsOnly(din);
    HoldsNoDraw(s, u);
    BindsAreNotDraws(din);
    HoldsNoDraw(s1, b);
    HoldsAppend3(s, u, b, dr, ReadyAtDraw);
  }

  /** A sub-draw issues exactly one draw, its own. */
  lemma SubDrawDraws(din: DrawInteraction)
    ensures Filter(SubDrawTrace(din), IsDraw) == [Draw(din)]
  {
    var u := UniformsTrace(din);
    var b := BindsTrace(din);
    BindsAreNotDraws(din);
    UniformsOnly(din);
    FilterNone(u, IsDraw);
    FilterNone(b, IsDraw);
    FilterAppend(u, b, IsDraw);
    FilterAppend(u + b, [Draw(din)], IsDraw);
  }

  // ---------------------------------------------------------------------
  // One surface and the surface chain

  /** Vertex pointers and model matrix of one surface, set before its sub-draws. */
  function SurfaceSetup(id: nat): seq<Cmd> {
    [ Pointer(ColorPointer, id), Pointer(AttribPointer(NormalSlot), id),
      Pointer(AttribPointer(BitangentSlot), id), Pointer(AttribPointer(TangentSlot), id),
      Pointer(AttribPointer(TexCoordSlot), id), Pointer(PositionPointer, id),
      ModelMatrix(id) ]
  }

  /** The state a surface's setup leaves: all six arrays point into it and,
      with the interaction program active, the model matrix is its own. */
  function AfterSurfaceSetup(s: PipeState, id: nat): PipeState {
    s.(pointers := s.pointers[ColorPointer := id][AttribPointer(NormalSlot) := id]
                             [AttribPointer(BitangentSlot) := id][AttribPointer(TangentSlot) := id]
                             [AttribPointer(TexCoordSlot) := id][PositionPointer := id],
       modelMatrix := if s.program == InteractionProgram then id else s.modelMatrix)
  }

  lemma RunSurfaceSetupExact(s: PipeState, id: nat)
    ensures Run(s, SurfaceSetup(id)) == AfterSurfaceSetup(s, id)
  {
    var t := SurfaceSetup(id);
    var s1 := Step(s, t[0]);
    var s2 := Step(s1, t[1]);
    var s3 := Step(s2, t[2]);
    var s4 := Step(s3, t[3]);
    var s5 := Step(s4, t[4]);
    var s6 := Step(s5, t[5]);
    var s7 := Step(s6, t[6]);
    assert Run(s6, t[6..]) == s7;
    assert Run(s5, t[5..]) == s7;
    assert Run(s4, t[4..]) == s7;
    assert Run(s3, t[3..]) == s7;
    assert Run(s2, t[2..]) == s7;
    assert Run(s1, t[1..]) == s7;
  }

  lemma RunSurfaceSetup(s: PipeState, id: nat)
    ensures BodyPreserves(s, Run(s, SurfaceSetup(id)))
    ensures Run(s, SurfaceSetup(id)).bound == s.bound
    ensures s.program == InteractionProgram ==> SurfaceLoaded(Run(s, SurfaceSetup(id)), id)
  {
    RunSurfaceSetupExact(s, id);
  }

  /** The sub-draws of one surface, in the order the layer expansion yields them. */
  function SubDrawsTrace(ds: seq<DrawInteraction>): seq<Cmd>
    decreases |ds|
  {
    if |ds| == 0 then [] else SubDrawTrace(ds[0]) + SubDrawsTrace(ds[1..])
  }

  /** The sub-draws of one surface keep the batch state, the vertex pointers
      and the model matrix. */
  lemma {:induction false} SubDrawsKeep(s: PipeState, ds: seq<DrawInteraction>)
    ensures BodyPreserves(s, Run(s, SubDrawsTrace(ds)))
    ensures Run(s, SubDrawsTrace(ds)).pointers == s.pointers
    ensures Run(s, SubDrawsTrace(ds)).modelMatrix == s.modelMatrix
    decreases |ds|
  {
    if |ds| > 0 {
      var a := SubDrawTrace(ds[0]);
      var rest := SubDrawsTrace(ds[1..]);
      SubDrawEffect(s, ds[0]);
      SubDrawsKeep(Run(s, a), ds[1..]);
      RunAppend(s, a, rest);
    }
  }

  lemma LastBumpCons(ds: seq<DrawInteraction>, prior: Image)
    requires |ds| > 0
    ensures LastBump(ds, prior) == LastBump(ds[1..], ds[0].bumpImage)
  {
    if |ds| > 1 {
      assert ds[1..][|ds[1..]| - 1] == ds[|ds| - 1];
    }
  }

  /** The sub-draws of one surface leave unit 0 holding the last bump image. */
  lemma {:induction false} SubDrawsBump(s: PipeState, ds: seq<DrawInteraction>)
    ensures BoundOn(Run(s, SubDrawsTrace(ds)), BumpUnit) == LastBump(ds, BoundOn(s, BumpUnit))
    decreases |ds|
  {
    if |ds| > 0 {
      var a := SubDrawTrace(ds[0]);
      var rest := SubDrawsTrace(ds[1..]);
      SubDrawEffect(s, ds[0]);
      SubDrawsBump(Run(s, a), ds[1..]);
      RunAppend(s, a, rest);
      LastBumpCons(ds, BoundOn(s, BumpUnit));
    }
  }

  /** Inside a batch whose surface `id` is loaded, every sub-draw of that
      surface issues its draw in a state ready for it. */
  lemma {:induction false} SubDrawsReady(s: PipeState, ds: seq<DrawInteraction>, id: nat)
    requires BatchActive(s) && SurfaceLoaded(s, id)
    requires forall d :: d in ds ==> d.surf == id
    ensures Holds(s, SubDrawsTrace(ds), ReadyAtDraw)
    decreases |ds|
  {
    if |ds| > 0 {
      var a := SubDrawTrace(ds[0]);
      var rest := SubDrawsTrace(ds[1..]);
      assert ds[0] in ds;
      SubDrawReady(s, ds[0]);
      SubDrawEffect(s, ds[0]);
      assert forall d :: d in ds[1..] ==> d in ds;
      SubDrawsReady(Run(s, a), ds[1..], id);
      HoldsAppend(s, a, rest, ReadyAtDraw);
    }
  }

  /** One surface: its vertex setup, then all its sub-draws. */
  function SurfaceTrace(surf: Surface): seq<Cmd> {
    SurfaceSetup(surf.id) + SubDrawsTrace(surf.subDraws)
  }

  /** The surfaces of one chain, in chain order. */
  function SurfacesTrace(surfs: seq<Surface>): seq<Cmd>
    decreases |surfs|
  {
    if |surfs| == 0 then [] else SurfaceTrace(surfs[0]) + SurfacesTrace(surfs[1..])
  }

  /** All sub-draws of a chain, surface by surface: the draws a batch must issue. */
  function Schedule(surfs: seq<Surface>): seq<DrawInteraction>
    decreases |surfs|
  {
    if |surfs| == 0 then [] else surfs[0].subDraws + Schedule(surfs[1..])
  }

  lemma LastBumpAppend(a: seq<DrawInteraction>, b: seq<DrawInteraction>, prior: Image)
    ensures LastBump(a + b, prior) == LastBump(b, LastBump(a, prior))
  {
    if |b| > 0 {
      assert (a + b)[|a + b| - 1] == b[|b| - 1];
    } else {
      assert a + b == a;
    }
  }

  /** A surface keeps the batch state and leaves unit 0 holding its last bump image. */
  lemma SurfaceEffect(s: PipeState, surf: Surface)
    ensures BodyPreserves(s, Run(s, SurfaceTrace(surf)))
    ensures BoundOn(Run(s, SurfaceTrace(surf)), BumpUnit) == LastBump(surf.subDraws, BoundOn(s, BumpUnit))
  {
    var a := SurfaceSetup(surf.id);
    var b := SubDrawsTrace(surf.subDraws);
    RunSurfaceSetup(s, surf.id);
    SubDrawsKeep(Run(s, a), surf.subDraws);
    SubDrawsBump(Run(s, a), surf.subDraws);
    RunAppend(s, a, b);
  }

  lemma SurfaceSetupNoDraws(id: nat)
    ensures forall c :: c in SurfaceSetup(id) ==> !IsDraw(c) && BodyCmd(c)
  {
  }

  /** Inside a batch, every sub-draw of a well-formed surface is issued ready. */
  lemma SurfaceReady(s: PipeState, surf: Surface)
    requires BatchActive(s) && WellFormedSurface(surf)
    ensures Holds(s, SurfaceTrace(surf), ReadyAtDraw)
  {
    var a := SurfaceSetup(surf.id);
    var b := SubDrawsTrace(surf.subDraws);
    RunSurfaceSetup(s, surf.id);
    SubDrawsReady(Run(s, a), surf.subDraws, surf.id);
    SurfaceSetupNoDraws(surf.id);
    HoldsNoDraw(s, a);
    HoldsAppend(s, a, b, ReadyAtDraw);
  }

  /** A chain of surfaces keeps the batch state and leaves unit 0 holding
      the last bump image of the whole schedule. */
  lemma {:induction false} SurfacesEffect(s: PipeState, surfs: seq<Surface>)
    ensures BodyPreserves(s, Run(s, SurfacesTrace(surfs)))
    ensures BoundOn(Run(s, SurfacesTrace(surfs)), BumpUnit) == LastBump(Schedule(surfs), BoundOn(s, BumpUnit))
    decreases |surfs|
  {
    if |surfs| > 0 {
      var a := SurfaceTrace(surfs[0]);
      var rest := SurfacesTrace(surfs[1..]);
      SurfaceEffect(s, surfs[0]);
      SurfacesEffect(Run(s, a), surfs[1..]);
      RunAppend(s, a, rest);
      LastBumpAppend(surfs[0].subDraws, Schedule(surfs[1..]), BoundOn(s, BumpUnit));
    }
  }

  /** Inside a batch, every sub-draw of a chain of well-formed surfaces is issued ready. */
  lemma {:induction false} SurfacesReady(s: PipeState, surfs: seq<Surface>)
    requires BatchActive(s) && WellFormedSurfaces(surfs)
    ensures Holds(s, SurfacesTrace(surfs), ReadyAtDraw)
    decreases |surfs|
  {
    if |surfs| > 0 {
      var a := SurfaceTrace(surfs[0]);
      var rest := SurfacesTrace(surfs[1..]);
      assert surfs[0] in surfs;
      SurfaceReady(s, surfs[0]);
      SurfaceEffect(s, surfs[0]);
      assert forall x :: x in surfs[1..] ==> x in surfs;
      SurfacesReady(Run(s, a), surfs[1..]);
      HoldsAppend(s, a, rest, ReadyAtDraw);
    }
  }

  /** Commands issued between batch setup and teardown. */
  predicate BodyCmd(c: Cmd) {
    || c.Pointer? || c.ModelMatrix? || c.Uniform? || c.Bind? || c.Draw?
    || (c.SelectUnitNoClient? && BumpUnit <= c.unit <= SpecularUnit)
  }

  lemma BindsCmds(din: DrawInteraction)
    ensures forall c :: c in BindsTrace(din) ==> BodyCmd(c) && !IsDraw(c)
  {
  }

  lemma SubDrawCmds(din: DrawInteraction)
    ensures forall c :: c in SubDrawTrace(din) ==> BodyCmd(c)
  {
    BindsCmds(din);
    UniformsOnly(din);
  }

  lemma {:induction false} SubDrawsCmds(ds: seq<DrawInteraction>)
    ensures forall c :: c in SubDrawsTrace(ds) ==> BodyCmd(c)
    decreases |ds|
  {
    if |ds| > 0 {
      SubDrawCmds(ds[0]);
      SubDrawsCmds(ds[1..]);
    }
  }

  lemma {:induction false} SurfacesCmds(surfs: seq<Surface>)
    ensures forall c :: c in SurfacesTrace(surfs) ==> BodyCmd(c)
    decreases |surfs|
  {
    if |surfs| > 0 {
      SurfaceSetupNoDraws(surfs[0].id);
      SubDrawsCmds(surfs[0].subDraws);
      SurfacesCmds(surfs[1..]);
    }
  }

  lemma {:induction false} SubDrawsDraws(ds: seq<DrawInteraction>)
    ensures Filter(SubDrawsTrace(ds), IsDraw) == DrawCmds(ds)
    decreases |ds|
  {
    if |ds| > 0 {
      SubDrawDraws(ds[0]);
      SubDrawsDraws(ds[1..]);
      FilterAppend(SubDrawTrace(ds[0]), SubDrawsTrace(ds[1..]), IsDraw);
    }
  }

  lemma {:induction false} SurfacesDraws(surfs: seq<Surface>)
    ensures Filter(SurfacesTrace(surfs), IsDraw) == DrawCmds(Schedule(surfs))
    decreases |surfs|
  {
    if |surfs| > 0 {
      var setup := SurfaceSetup(surfs[0].id);
      var subs := SubDrawsTrace(surfs[0].subDraws);
      var rest := SurfacesTrace(surfs[1..]);
      SurfaceSetupNoDraws(surfs[0].id);
      FilterNone(setup, IsDraw);
      SubDrawsDraws(surfs[0].subDraws);
      FilterAppend(setup, subs, IsDraw);
      assert Filter(setup + subs, IsDraw) == DrawCmds(surfs[0].subDraws);
      SurfacesDraws(surfs[1..]);
      FilterAppend(setup + subs, rest, IsDraw);
      DrawCmdsAppend(surfs[0].subDraws, Schedule(surfs[1..]));
    }
  }
}

=== FILE: light_loop.dfy ===
/** The per-frame light loop: for every visible light, the stencil set-up,
    the fixed cross-pairing of shadow passes and interaction batches, and
    the translucent sub-pass that draws with a LESS depth test. */
module LightLoop {
  import opened GlTypes
  import opened Traces
  import opened Pipeline
  import opened InteractionDraw
  import opened InteractionBatch

  /** A visible light with the surfaces it lights and the shadow casters of
      its two shadow passes.  The light shader is reduced to the two flags
      the loop tests. */
  datatype ViewLight = ViewLight(
    fogLight: bool,
    blendLight: bool,
    scissorRect: Rect,
    localInteractions: seq<Surface>,
    globalInteractions: seq<Surface>,
    translucentInteractions: seq<Surface>,
    localShadows: seq<nat>,
    globalShadows: seq<nat>)

  /** The console variables the loop reads. */
  datatype Cvars = Cvars(useScissor: bool, useShadowVertexProgram: bool, skipTranslucent: bool)

  /** Fog and blend lights are drawn elsewhere; a light with nothing to draw is passed over. */
  predicate Skipped(l: ViewLight) {
    || l.fogLight
    || l.blendLight
    || (|l.localInteractions| == 0 && |l.globalInteractions| == 0 && |l.translucentInteractions| == 0)
  }

  predicate HasShadows(l: ViewLight) {
    |l.globalShadows| > 0 || |l.localShadows| > 0
  }

  predicate WellFormedLight(l: ViewLight) {
    && WellFormedSurfaces(l.localInteractions)
    && WellFormedSurfaces(l.globalInteractions)
    && WellFormedSurfaces(l.translucentInteractions)
  }

  predicate WellFormedLights(ls: seq<ViewLight>) {
    forall l :: l in ls ==> WellFormedLight(l)
  }

  // ---------------------------------------------------------------------
  // Stencil set-up

  /** The scissor call for a light's rectangle, offset by the viewport's
      origin; the rectangle's corners are inclusive. */
  function ScissorBox(vp: Rect, r: Rect): Box {
    Box(vp.x1 + r.x1, vp.y1 + r.y1, r.x2 + 1 - r.x1, r.y2 + 1 - r.y1)
  }

  predicate InBox(b: Box, x: int, y: int) {
    b.x <= x < b.x + b.width && b.y <= y < b.y + b.height
  }

  /** The scissor box admits exactly the pixels of the light's inclusive
      rectangle moved to the viewport. */
  lemma ScissorCovers(vp: Rect, r: Rect, x: int, y: int)
    ensures InBox(ScissorBox(vp, r), x, y) <==>
      vp.x1 + r.x1 <= x <= vp.x1 + r.x2 && vp.y1 + r.y1 <= y <= vp.y1 + r.y2
  {
  }

  /** With shadows: record the light's scissor rectangle, optionally scissor
      to it, and clear the stencil buffer.  Without: let the stencil test pass. */
  function StencilSetup(cv: Cvars, vp: Rect, l: ViewLight): seq<Cmd> {
    if HasShadows(l) then
      [RecordScissor(l.scissorRect)]
      + (if cv.useScissor then [Scissor(ScissorBox(vp, l.scissorRect))] else [])
      + [ClearStencil]
    else [StencilFuncAlways]
  }

  // ---------------------------------------------------------------------
  // Shadow and interaction passes

  /** One shadow pass, preceded by selecting the shadow program when the
      shadow vertex program is in use. */
  function ShadowStep(cv: Cvars, casters: seq<nat>): seq<Cmd> {
    if cv.useShadowVertexProgram then [UseProgram(ShadowProgram), ShadowPass(casters)]
    else [ShadowPass(casters)]
  }

  function PassesEnd(cv: Cvars): seq<Cmd> {
    if cv.useShadowVertexProgram then [UseProgram(NoProgram)] else []
  }

  /** Global shadows, local interactions, local shadows, global interactions. */
  function Passes(cv: Cvars, l: ViewLight, depth: DepthFunc): seq<Cmd> {
    ShadowStep(cv, l.globalShadows) + BatchTrace(depth, l.localInteractions)
    + ShadowStep(cv, l.localShadows) + BatchTrace(depth, l.globalInteractions)
    + PassesEnd(cv)
  }

  /** Translucent surfaces, never stencil shadowed, drawn with a LESS depth
      test; the back end's depth function is EQUAL afterwards. */
  function TranslucentPass(cv: Cvars, l: ViewLight): seq<Cmd> {
    if cv.skipTranslucent then []
    else [StencilFuncAlways, SetDepthFunc(DepthLess)]
         + BatchTrace(DepthLess, l.translucentInteractions)
         + [SetDepthFunc(DepthEqual)]
  }

  /** The commands for one light, `depth` being the back end's depth function. */
  function LightTrace(cv: Cvars, vp: Rect, l: ViewLight, depth: DepthFunc): seq<Cmd> {
    if Skipped(l) then []
    else StencilSetup(cv, vp, l) + Passes(cv, l, depth) + TranslucentPass(cv, l)
  }

  /** The back end's depth function after a light. */
  function DepthAfter(cv: Cvars, l: ViewLight, depth: DepthFunc): DepthFunc {
    if Skipped(l) || cv.skipTranslucent then depth else DepthEqual
  }

  /** The commands for a list of lights, threading the depth function through. */
  function LightsTrace(cv: Cvars, vp: Rect, ls: seq<ViewLight>, depth: DepthFunc): seq<Cmd>
    decreases |ls|
  {
    if |ls| == 0 then []
    else LightTrace(cv, vp, ls[0], depth) + LightsTrace(cv, vp, ls[1..], DepthAfter(cv, ls[0], depth))
  }

  function FinalDepth(cv: Cvars, ls: seq<ViewLight>, depth: DepthFunc): DepthFunc
    decreases |ls|
  {
    if |ls| == 0 then depth else FinalDepth(cv, ls[1..], DepthAfter(cv, ls[0], depth))
  }

  /** The whole loop: unit 0 selected and its texture-coordinate array off
      on entry; on exit the stencil test passes again and the array is back on. */
  function FrameTrace(cv: Cvars, vp: Rect, ls: seq<ViewLight>, depth: DepthFunc): seq<Cmd> {
    FrameWrap(LightsTrace(cv, vp, ls, depth))
  }

  function FrameWrap(body: seq<Cmd>): seq<Cmd> {
    [SelectUnit(BumpUnit), DisableClient(TexCoordArray)] + body
    + [StencilFuncAlways, SelectUnit(BumpUnit), EnableClient(TexCoordArray)]
  }

  // ---------------------------------------------------------------------
  // What each part of a light issues

  lemma StencilSetupCmds(cv: Cvars, vp: Rect, l: ViewLight)
    ensures forall c :: c in StencilSetup(cv, vp, l) ==>
      !c.Draw? && !c.SetDepthFunc? && !c.ShadowPass? && !c.UseProgram?
      && !c.EnableClient? && !c.DisableClient?
  {
  }

  lemma ShadowStepCmds(cv: Cvars, casters: seq<nat>)
    ensures forall c :: c in ShadowStep(cv, casters) ==>
      c == ShadowPass(casters) || (cv.useShadowVertexProgram && c == UseProgram(ShadowProgram))
  {
  }

  /** The passes issue batch commands, their two shadow passes and program selections. */
  lemma PassesCmds(cv: Cvars, l: ViewLight, depth: DepthFunc)
    ensures forall c :: c in Passes(cv, l, depth) ==>
      || BatchCmd(c)
      || c == ShadowPass(l.globalShadows) || c == ShadowPass(l.localShadows)
      || c == UseProgram(ShadowProgram)
  {
    BatchCmds(depth, l.localInteractions);
    BatchCmds(depth, l.globalInteractions);
    ShadowStepCmds(cv, l.globalShadows);
    ShadowStepCmds(cv, l.localShadows);
  }

  lemma TranslucentCmds(cv: Cvars, l: ViewLight)
    ensures forall c :: c in TranslucentPass(cv, l) ==>
      BatchCmd(c) || c == StencilFuncAlways || c.SetDepthFunc?
  {
    BatchCmds(DepthLess, l.translucentInteractions);
  }

  /** The texture-coordinate array is left alone by everything a light
      issues; every `BatchCmd` is such a command. */
  predicate KeepsTexCoord(c: Cmd) {
    && !(c.EnableClient? && c.clientArray == TexCoordArray)
    && !(c.DisableClient? && c.clientArray == TexCoordArray)
  }

  lemma LightCmds(cv: Cvars, vp: Rect, l: ViewLight, depth: DepthFunc)
    ensures forall c :: c in LightTrace(cv, vp, l, depth) ==> KeepsTexCoord(c)
  {
    if !Skipped(l) {
      var a, b, c := StencilSetup(cv, vp, l), Passes(cv, l, depth), TranslucentPass(cv, l);
      StencilSetupCmds(cv, vp, l);
      PassesCmds(cv, l, depth);
      TranslucentCmds(cv, l);
      assert LightTrace(cv, vp, l, depth) == a + b + c;
    }
  }

  lemma {:induction false} LightsCmds(cv: Cvars, vp: Rect, ls: seq<ViewLight>, depth: DepthFunc)
    ensures forall c :: c in LightsTrace(cv, vp, ls, depth) ==> KeepsTexCoord(c)
    decreases |ls|
  {
    if |ls| > 0 {
      LightCmds(cv, vp, ls[0], depth);
      LightsCmds(cv, vp, ls[1..], DepthAfter(cv, ls[0], depth));
    }
  }

  // ---------------------------------------------------------------------
  // Skipping

  /** A light issues commands exactly when it is not passed over. */
  lemma LightSkipped(cv: Cvars, vp: Rect, l: ViewLight, depth: DepthFunc)
    ensures LightTrace(cv, vp, l, depth) == [] <==> Skipped(l)
    ensures Skipped(l) ==> DepthAfter(cv, l, depth) == depth
  {
    if !Skipped(l) {
      assert StencilSetup(cv, vp, l) != [];
    }
  }

  predicate Lit(l: ViewLight) {
    !Skipped(l)
  }

  /** Passed-over lights neither issue commands nor disturb the lights after
      them: the loop issues the same as it would for the lit lights alone. */
  lemma {:induction false} SkippedLightsIgnored(cv: Cvars, vp: Rect, ls: seq<ViewLight>, depth: DepthFunc)
    ensures LightsTrace(cv, vp, ls, depth) == LightsTrace(cv, vp, Filter(ls, Lit), depth)
    decreases |ls|
  {
    if |ls| > 0 {
      var rest := Filter(ls[1..], Lit);
      SkippedLightsIgnored(cv, vp, ls[1..], DepthAfter(cv, ls[0], depth));
      if Lit(ls[0]) {
        var f := [ls[0]] + rest;
        assert f[0] == ls[0] && f[1..] == rest;
      } else {
        LightSkipped(cv, vp, ls[0], depth);
      }
    }
  }

  // ---------------------------------------------------------------------
  // Stencil

  predicate IsStencilSetupCmd(c: Cmd) {
    c.RecordScissor? || c.Scissor? || c.ClearStencil?
  }

  /** The stencil clear and its scissor. */
  function ExpectedStencilCmds(cv: Cvars, vp: Rect, l: ViewLight): seq<Cmd> {
    if Skipped(l) || !HasShadows(l) then []
    else [RecordScissor(l.scissorRect)]
         + (if cv.useScissor then [Scissor(ScissorBox(vp, l.scissorRect))] else [])
         + [ClearStencil]
  }

  lemma StencilSetupStencil(cv: Cvars, vp: Rect, l: ViewLight)
    ensures Filter(StencilSetup(cv, vp, l), IsStencilSetupCmd) == if HasShadows(l) then StencilSetup(cv, vp, l) else []
  {
    var a := StencilSetup(cv, vp, l);
    if HasShadows(l) {
      FilterAll(a, IsStencilSetupCmd);
    } else {
      assert a[1..] == [];
    }
  }

  lemma LitStencil(cv: Cvars, vp: Rect, l: ViewLight, depth: DepthFunc)
    ensures Filter(StencilSetup(cv, vp, l) + Passes(cv, l, depth) + TranslucentPass(cv, l), IsStencilSetupCmd)
         == if HasShadows(l) then StencilSetup(cv, vp, l) else []
  {
    var a, b, c := StencilSetup(cv, vp, l), Passes(cv, l, depth), TranslucentPass(cv, l);
    PassesCmds(cv, l, depth);
    TranslucentCmds(cv, l);
    FilterNone(b, IsStencilSetupCmd);
    FilterNone(c, IsStencilSetupCmd);
    StencilSetupStencil(cv, vp, l);
    FilterAppend3(a, b, c, IsStencilSetupCmd);
  }

  /** A lit light with shadows records its scissor rectangle, scissors to it
      when scissoring is on, and clears the stencil buffer, once each; no
      other light touches the scissor or clears the stencil. */
  lemma LightStencil(cv: Cvars, vp: Rect, l: ViewLight, depth: DepthFunc)
    ensures Filter(LightTrace(cv, vp, l, depth), IsStencilSetupCmd) == ExpectedStencilCmds(cv, vp, l)
  {
    if !Skipped(l) {
      LitStencil(cv, vp, l, depth);
    }
  }

  // ---------------------------------------------------------------------
  // Pass order

  predicate IsPassCmd(c: Cmd) {
    c.ShadowPass? || c.Draw?
  }

  /** The shadow passes and draws a light should issue, in order: global
      shadows, local interactions, local shadows, global interactions, then
      the translucent interactions unless they are skipped. */
  function LightPasses(cv: Cvars, l: ViewLight): seq<Cmd> {
    if Skipped(l) then []
    else [ShadowPass(l.globalShadows)] + DrawCmds(Schedule(l.localInteractions))
         + [ShadowPass(l.localShadows)] + DrawCmds(Schedule(l.globalInteractions))
         + (if cv.skipTranslucent then [] else DrawCmds(Schedule(l.translucentInteractions)))
  }

  function AllPasses(cv: Cvars, ls: seq<ViewLight>): seq<Cmd>
    decreases |ls|
  {
    if |ls| == 0 then [] else LightPasses(cv, ls[0]) + AllPasses(cv, ls[1..])
  }

  lemma BatchPasses(depth: DepthFunc, surfs: seq<Surface>)
    ensures Filter(BatchTrace(depth, surfs), IsPassCmd) == DrawCmds(Schedule(surfs))
  {
    BatchCmds(depth, surfs);
    FilterSame(BatchTrace(depth, surfs), IsPassCmd, IsDraw);
    BatchDraws(depth, surfs);
  }

  lemma ShadowStepPasses(cv: Cvars, casters: seq<nat>)
    ensures Filter(ShadowStep(cv, casters), IsPassCmd) == [ShadowPass(casters)]
  {
    var t := ShadowStep(cv, casters);
    if cv.useShadowVertexProgram {
      assert t[1..][1..] == [];
    } else {
      assert t[1..] == [];
    }
  }

  lemma PassesPasses(cv: Cvars, l: ViewLight, depth: DepthFunc)
    ensures Filter(Passes(cv, l, depth), IsPassCmd) ==
      [ShadowPass(l.globalShadows)] + DrawCmds(Schedule(l.localInteractions))
      + [ShadowPass(l.localShadows)] + DrawCmds(Schedule(l.globalInteractions))
  {
    var a, b := ShadowStep(cv, l.globalShadows), BatchTrace(depth, l.localInteractions);
    var c, d := ShadowStep(cv, l.localShadows), BatchTrace(depth, l.globalInteractions);
    var e := PassesEnd(cv);
    ShadowStepPasses(cv, l.globalShadows);
    ShadowStepPasses(cv, l.localShadows);
    BatchPasses(depth, l.localInteractions);
    BatchPasses(depth, l.globalInteractions);
    FilterNone(e, IsPassCmd);
    FilterAppend(a + b + c + d, e, IsPassCmd);
    FilterAppend(a + b + c, d, IsPassCmd);
    FilterAppend(a + b, c, IsPassCmd);
    FilterAppend(a, b, IsPassCmd);
  }

  lemma TranslucentPasses(cv: Cvars, l: ViewLight)
    ensures Filter(TranslucentPass(cv, l), IsPassCmd) ==
      if cv.skipTranslucent then [] else DrawCmds(Schedule(l.translucentInteractions))
  {
    if !cv.skipTranslucent {
      var a := [StencilFuncAlways, SetDepthFunc(DepthLess)];
      var b := BatchTrace(DepthLess, l.translucentInteractions);
      var c := [SetDepthFunc(DepthEqual)];
      FilterNone(a, IsPassCmd);
      FilterNone(c, IsPassCmd);
      BatchPasses(DepthLess, l.translucentInteractions);
      FilterAppend(a + b, c, IsPassCmd);
      FilterAppend(a, b, IsPassCmd);
    }
  }

  lemma LitPassOrder(cv: Cvars, vp: Rect, l: ViewLight, depth: DepthFunc)
    ensures Filter(StencilSetup(cv, vp, l) + Passes(cv, l, depth) + TranslucentPass(cv, l), IsPassCmd)
         == [ShadowPass(l.globalShadows)] + DrawCmds(Schedule(l.localInteractions))
            + [ShadowPass(l.localShadows)] + DrawCmds(Schedule(l.globalInteractions))
            + (if cv.skipTranslucent then [] else DrawCmds(Schedule(l.translucentInteractions)))
  {
    var a, b, c := StencilSetup(cv, vp, l), Passes(cv, l, depth), TranslucentPass(cv, l);
    StencilSetupCmds(cv, vp, l);
    FilterNone(a, IsPassCmd);
    PassesPasses(cv, l, depth);
    TranslucentPasses(cv, l);
    FilterAppend3(a, b, c, IsPassCmd);
  }

  /** A light issues its shadow passes and draws in the fixed order. */
  lemma LightPassOrder(cv: Cvars, vp: Rect, l: ViewLight, depth: DepthFunc)
    ensures Filter(LightTrace(cv, vp, l, depth), IsPassCmd) == LightPasses(cv, l)
  {
    if !Skipped(l) {
      LitPassOrder(cv, vp, l, depth);
    }
  }

  /** The shadow vertex program does not change the order of shadow passes and draws. */
  lemma PassOrderIgnoresShadowProgram(cv: Cvars, vp: Rect, l: ViewLight, depth: DepthFunc, useShadowVertexProgram: bool)
    ensures Filter(LightTrace(cv, vp, l, depth), IsPassCmd)
         == Filter(LightTrace(cv.(useShadowVertexProgram := useShadowVertexProgram), vp, l, depth), IsPassCmd)
  {
    LightPassOrder(cv, vp, l, depth);
    LightPassOrder(cv.(useShadowVertexProgram := useShadowVertexProgram), vp, l, depth);
  }

  /** Over a frame, the shadow passes and draws are those of each light in turn. */
  lemma {:induction false} LightsPassOrder(cv: Cvars, vp: Rect, ls: seq<ViewLight>, depth: DepthFunc)
    ensures Filter(LightsTrace(cv, vp, ls, depth), IsPassCmd) == AllPasses(cv, ls)
    decreases |ls|
  {
    if |ls| > 0 {
      LightPassOrder(cv, vp, ls[0], depth);
      LightsPassOrder(cv, vp, ls[1..], DepthAfter(cv, ls[0], depth));
      FilterAppend(LightTrace(cv, vp, ls[0], depth), LightsTrace(cv, vp, ls[1..], DepthAfter(cv, ls[0], depth)), IsPassCmd);
    }
  }

  lemma FramePassOrder(cv: Cvars, vp: Rect, ls: seq<ViewLight>, depth: DepthFunc)
    ensures Filter(FrameTrace(cv, vp, ls, depth), IsPassCmd) == AllPasses(cv, ls)
  {
    var a := [SelectUnit(BumpUnit), DisableClient(TexCoordArray)];
    var b := LightsTrace(cv, vp, ls, depth);
    var c := [StencilFuncAlways, SelectUnit(BumpUnit), EnableClient(TexCoordArray)];
    LightsPassOrder(cv, vp, ls, depth);
    FilterNone(a, IsPassCmd);
    FilterNone(c, IsPassCmd);
    FilterAppend(a + b, c, IsPassCmd);
    FilterAppend(a, b, IsPassCmd);
  }

  // ---------------------------------------------------------------------
  // The shadow vertex program

  predicate NotShadowSelect(c: Cmd) {
    c != UseProgram(ShadowProgram)
  }

  lemma ShadowStepWithoutSelect(cv: Cvars, casters: seq<nat>)
    requires cv.useShadowVertexProgram
    ensures Filter(ShadowStep(cv, casters), NotShadowSelect)
         == ShadowStep(cv.(useShadowVertexProgram := false), casters)
  {
    var t := ShadowStep(cv, casters);
    assert t[1..][1..] == [];
  }

  lemma BatchWithoutSelect(depth: DepthFunc, surfs: seq<Surface>)
    ensures Filter(BatchTrace(depth, surfs), NotShadowSelect) == BatchTrace(depth, surfs)
  {
    BatchCmds(depth, surfs);
    FilterAll(BatchTrace(depth, surfs), NotShadowSelect);
  }

  lemma EndWithoutSelect(cv: Cvars)
    ensures Filter(PassesEnd(cv), NotShadowSelect) == PassesEnd(cv)
  {
    FilterAll(PassesEnd(cv), NotShadowSelect);
  }

  /** With the shadow vertex program, the passes are those issued without
      it, with the shadow program selected before each shadow pass and no
      program selected at the end. */
  lemma ShadowProgramInserts(cv: Cvars, l: ViewLight, depth: DepthFunc)
    requires cv.useShadowVertexProgram
    ensures Filter(Passes(cv, l, depth), NotShadowSelect)
         == Passes(cv.(useShadowVertexProgram := false), l, depth) + [UseProgram(NoProgram)]
  {
    var cv0 := cv.(useShadowVertexProgram := false);
    var a, b := ShadowStep(cv, l.globalShadows), BatchTrace(depth, l.localInteractions);
    var c, d := ShadowStep(cv, l.localShadows), BatchTrace(depth, l.globalInteractions);
    var e := PassesEnd(cv);
    BatchWithoutSelect(depth, l.localInteractions);
    BatchWithoutSelect(depth, l.globalInteractions);
    EndWithoutSelect(cv);
    ShadowStepWithoutSelect(cv, l.globalShadows);
    ShadowStepWithoutSelect(cv, l.localShadows);
    FilterAppend5(a, b, c, d, e, NotShadowSelect);
    var p0 := ShadowStep(cv0, l.globalShadows) + b + ShadowStep(cv0, l.localShadows) + d;
    assert Passes(cv0, l, depth) == p0 + [];
  }

  /** With the shadow vertex program, every shadow pass runs under the
      shadow program, and no program is left selected after the passes. */
  lemma ShadowPassesUseProgram(s: PipeState, cv: Cvars, l: ViewLight, depth: DepthFunc)
    requires cv.useShadowVertexProgram
    ensures Holds(s, Passes(cv, l, depth), ShadowUnderProgram)
    ensures Run(s, Passes(cv, l, depth)).program == NoProgram
  {
    var a, b := ShadowStep(cv, l.globalShadows), BatchTrace(depth, l.localInteractions);
    var c, d := ShadowStep(cv, l.localShadows), BatchTrace(depth, l.globalInteractions);
    var e := PassesEnd(cv);
    BatchCmds(depth, l.localInteractions);
    BatchCmds(depth, l.globalInteractions);
    ShadowStepUnderProgram(cv, l.globalShadows);
    ShadowStepUnderProgram(cv, l.localShadows);
    HoldsEverywhereVacuous(b, ShadowUnderProgram);
    HoldsEverywhereVacuous(d, ShadowUnderProgram);
    HoldsEverywhereVacuous(e, ShadowUnderProgram);
    HoldsEverywhereAppend(a, b, ShadowUnderProgram);
    HoldsEverywhereAppend(a + b, c, ShadowUnderProgram);
    HoldsEverywhereAppend(a + b + c, d, ShadowUnderProgram);
    HoldsEverywhereAppend(a + b + c + d, e, ShadowUnderProgram);
    assert HoldsEverywhere(a + b + c + d + e, ShadowUnderProgram);
    RunAppend(s, a + b + c + d, e);
  }

  predicate ShadowUnderProgram(s: PipeState, c: Cmd) {
    c.ShadowPass? ==> s.program == ShadowProgram
  }

  /** `P` holds at every command of `t` whatever state `t` starts in. */
  ghost predicate HoldsEverywhere(t: seq<Cmd>, P: (PipeState, Cmd) -> bool) {
    forall s: PipeState :: Holds(s, t, P)
  }

  lemma HoldsEverywhereAppend(a: seq<Cmd>, b: seq<Cmd>, P: (PipeState, Cmd) -> bool)
    requires HoldsEverywhere(a, P) && HoldsEverywhere(b, P)
    ensures HoldsEverywhere(a + b, P)
  {
    forall s: PipeState
      ensures Holds(s, a + b, P)
    {
      HoldsAppend(s, a, b, P);
    }
  }

  lemma HoldsEverywhereVacuous(t: seq<Cmd>, P: (PipeState, Cmd) -> bool)
    requires forall c, st :: c in t ==> P(st, c)
    ensures HoldsEverywhere(t, P)
  {
    forall s: PipeState
      ensures Holds(s, t, P)
    {
      HoldsVacuous(s, t, P);
    }
  }

  lemma ShadowStepUnderProgram(cv: Cvars, casters: seq<nat>)
    requires cv.useShadowVertexProgram
    ensures HoldsEverywhere(ShadowStep(cv, casters), ShadowUnderProgram)
  {
    var t := ShadowStep(cv, casters);
    forall s: PipeState
      ensures Holds(s, t, ShadowUnderProgram)
    {
      assert t[1..][1..] == [];
    }
  }

  // ---------------------------------------------------------------------
  // The back end's depth function

  /** From any state whose back-end depth function is `d`, `t` leaves it `d2`. */
  ghost predicate Moves(t: seq<Cmd>, d: DepthFunc, d2: DepthFunc) {
    forall s: PipeState :: s.depthFunc == d ==> Run(s, t).depthFunc == d2
  }

  lemma MovesAppend(a: seq<Cmd>, b: seq<Cmd>, d1: DepthFunc, d2: DepthFunc, d3: DepthFunc)
    requires Moves(a, d1, d2) && Moves(b, d2, d3)
    ensures Moves(a + b, d1, d3)
  {
    forall s: PipeState | s.depthFunc == d1
      ensures Run(s, a + b).depthFunc == d3
    {
      RunAppend(s, a, b);
    }
  }

  lemma {:induction false} RunKeepsDepth(s: PipeState, t: seq<Cmd>)
    requires forall c :: c in t ==> !c.SetDepthFunc?
    ensures Run(s, t).depthFunc == s.depthFunc
    decreases |t|
  {
    if |t| > 0 {
      assert t[0] in t;
      assert forall c :: c in t[1..] ==> c in t;
      StepKeepsDepth(s, t[0]);
      RunKeepsDepth(Step(s, t[0]), t[1..]);
    }
  }

  lemma StepKeepsDepth(s: PipeState, c: Cmd)
    requires !c.SetDepthFunc?
    ensures Step(s, c).depthFunc == s.depthFunc
  {
  }

  lemma KeepsDepth(t: seq<Cmd>, d: DepthFunc)
    requires forall c :: c in t ==> !c.SetDepthFunc?
    ensures Moves(t, d, d)
  {
    forall s: PipeState | s.depthFunc == d
      ensures Run(s, t).depthFunc == d
    {
      RunKeepsDepth(s, t);
    }
  }

  /** A trace ending by setting the depth function leaves that function. */
  lemma EndsSettingDepth(t: seq<Cmd>, d: DepthFunc, d2: DepthFunc)
    ensures Moves(t + [SetDepthFunc(d2)], d, d2)
  {
    forall s: PipeState | s.depthFunc == d
      ensures Run(s, t + [SetDepthFunc(d2)]).depthFunc == d2
    {
      RunAppend(s, t, [SetDepthFunc(d2)]);
    }
  }

  /** Only the translucent sub-pass changes the back end's depth function:
      a lit light drawing translucent surfaces leaves it EQUAL, any other
      light leaves it as it found it. */
  lemma LightMoves(cv: Cvars, vp: Rect, l: ViewLight, d: DepthFunc)
    ensures Moves(LightTrace(cv, vp, l, d), d, DepthAfter(cv, l, d))
  {
    if Skipped(l) {
      KeepsDepth([], d);
    } else {
      var a, b, c := StencilSetup(cv, vp, l), Passes(cv, l, d), TranslucentPass(cv, l);
      StencilSetupCmds(cv, vp, l);
      PassesCmds(cv, l, d);
      KeepsDepth(a + b, d);
      if cv.skipTranslucent {
        KeepsDepth(c, d);
      } else {
        EndsSettingDepth([StencilFuncAlways, SetDepthFunc(DepthLess)] + BatchTrace(DepthLess, l.translucentInteractions), d, DepthEqual);
      }
      MovesAppend(a + b, c, d, d, DepthAfter(cv, l, d));
    }
  }

  lemma {:induction false} LightsMoves(cv: Cvars, vp: Rect, ls: seq<ViewLight>, d: DepthFunc)
    ensures Moves(LightsTrace(cv, vp, ls, d), d, FinalDepth(cv, ls, d))
    decreases |ls|
  {
    if |ls| == 0 {
      KeepsDepth([], d);
    } else {
      var d2 := DepthAfter(cv, ls[0], d);
      LightMoves(cv, vp, ls[0], d);
      LightsMoves(cv, vp, ls[1..], d2);
      MovesAppend(LightTrace(cv, vp, ls[0], d), LightsTrace(cv, vp, ls[1..], d2), d, d2, FinalDepth(cv, ls, d));
    }
  }

  /** Some light of `ls` is lit. */
  predicate AnyLit(ls: seq<ViewLight>) {
    exists i :: 0 <= i < |ls| && Lit(ls[i])
  }

  lemma AnyLitCons(ls: seq<ViewLight>)
    requires |ls| > 0
    ensures AnyLit(ls) <==> Lit(ls[0]) || AnyLit(ls[1..])
  {
    if AnyLit(ls[1..]) {
      var i :| 0 <= i < |ls[1..]| && Lit(ls[1..][i]);
      assert Lit(ls[i + 1]);
    }
    if Lit(ls[0]) {
      assert 0 <= 0 < |ls| && Lit(ls[0]);
    }
    if AnyLit(ls) {
      var i :| 0 <= i < |ls| && Lit(ls[i]);
      if i > 0 {
        assert Lit(ls[1..][i - 1]);
      }
    }
  }

  /** The depth function a frame leaves: EQUAL if some lit light drew its
      translucent surfaces, otherwise the one it started with. */
  lemma {:induction false} FinalDepthIs(cv: Cvars, ls: seq<ViewLight>, d: DepthFunc)
    ensures FinalDepth(cv, ls, d) == if !cv.skipTranslucent && AnyLit(ls) then DepthEqual else d
    decreases |ls|
  {
    if |ls| > 0 {
      FinalDepthIs(cv, ls[1..], DepthAfter(cv, ls[0], d));
      AnyLitCons(ls);
    }
  }

  lemma FrameMoves(cv: Cvars, vp: Rect, ls: seq<ViewLight>, d: DepthFunc)
    ensures Moves(FrameTrace(cv, vp, ls, d), d, FinalDepth(cv, ls, d))
  {
    var a := [SelectUnit(BumpUnit), DisableClient(TexCoordArray)];
    var b := LightsTrace(cv, vp, ls, d);
    var c := [StencilFuncAlways, SelectUnit(BumpUnit), EnableClient(TexCoordArray)];
    var f := FinalDepth(cv, ls, d);
    KeepsDepth(a, d);
    KeepsDepth(c, f);
    LightsMoves(cv, vp, ls, d);
    MovesAppend(a, b, d, d, f);
    MovesAppend(a + b, c, d, f, f);
  }

  // ---------------------------------------------------------------------
  // Every draw finds the pipeline ready

  /** From any state whose back-end depth function is `d`, every draw of
      `t` finds the pipeline ready for its sub-draw. */
  ghost predicate ReadyFrom(t: seq<Cmd>, d: DepthFunc) {
    forall s: PipeState :: s.depthFunc == d ==> Holds(s, t, ReadyAtDraw)
  }

  lemma ReadyAppend(a: seq<Cmd>, b: seq<Cmd>, d1: DepthFunc, d2: DepthFunc)
    requires ReadyFrom(a, d1) && Moves(a, d1, d2) && ReadyFrom(b, d2)
    ensures ReadyFrom(a + b, d1)
  {
    forall s: PipeState | s.depthFunc == d1
      ensures Holds(s, a + b, ReadyAtDraw)
    {
      HoldsAppend(s, a, b, ReadyAtDraw);
    }
  }

  lemma NoDrawsReady(t: seq<Cmd>, d: DepthFunc)
    requires forall c :: c in t ==> !c.Draw?
    ensures ReadyFrom(t, d)
  {
    forall s: PipeState | s.depthFunc == d
      ensures Holds(s, t, ReadyAtDraw)
    {
      HoldsNoDraw(s, t);
    }
  }

  /** A batch handed the back end's depth function draws ready and leaves that function. */
  lemma BatchSteps(d: DepthFunc, surfs: seq<Surface>)
    requires WellFormedSurfaces(surfs)
    ensures ReadyFrom(BatchTrace(d, surfs), d) && Moves(BatchTrace(d, surfs), d, d)
  {
    BatchCmds(d, surfs);
    KeepsDepth(BatchTrace(d, surfs), d);
    forall s: PipeState | s.depthFunc == d
      ensures Holds(s, BatchTrace(d, surfs), ReadyAtDraw)
    {
      BatchReady(s, d, surfs);
    }
  }

  lemma ShadowStepSteps(cv: Cvars, casters: seq<nat>, d: DepthFunc)
    ensures ReadyFrom(ShadowStep(cv, casters), d) && Moves(ShadowStep(cv, casters), d, d)
  {
    ShadowStepCmds(cv, casters);
    NoDrawsReady(ShadowStep(cv, casters), d);
    KeepsDepth(ShadowStep(cv, casters), d);
  }

  lemma PassesReady(cv: Cvars, l: ViewLight, d: DepthFunc)
    requires WellFormedSurfaces(l.localInteractions) && WellFormedSurfaces(l.globalInteractions)
    ensures ReadyFrom(Passes(cv, l, d), d)
  {
    var a, b := ShadowStep(cv, l.globalShadows), BatchTrace(d, l.localInteractions);
    var c, e := ShadowStep(cv, l.localShadows), BatchTrace(d, l.globalInteractions);
    var f := PassesEnd(cv);
    ShadowStepSteps(cv, l.globalShadows, d);
    ShadowStepSteps(cv, l.localShadows, d);
    BatchSteps(d, l.localInteractions);
    BatchSteps(d, l.globalInteractions);
    NoDrawsReady(f, d);
    ReadyAppend(a, b, d, d);
    MovesAppend(a, b, d, d, d);
    ReadyAppend(a + b, c, d, d);
    MovesAppend(a + b, c, d, d, d);
    ReadyAppend(a + b + c, e, d, d);
    MovesAppend(a + b + c, e, d, d, d);
    ReadyAppend(a + b + c + e, f, d, d);
  }

  lemma TranslucentReady(cv: Cvars, l: ViewLight, d: DepthFunc)
    requires WellFormedSurfaces(l.translucentInteractions)
    ensures ReadyFrom(TranslucentPass(cv, l), d)
  {
    if cv.skipTranslucent {
      NoDrawsReady([], d);
    } else {
      var a := [StencilFuncAlways, SetDepthFunc(DepthLess)];
      var b := BatchTrace(DepthLess, l.translucentInteractions);
      var c := [SetDepthFunc(DepthEqual)];
      NoDrawsReady(a, d);
      EndsSettingDepth([StencilFuncAlways], d, DepthLess);
      assert [StencilFuncAlways] + [SetDepthFunc(DepthLess)] == a;
      BatchSteps(DepthLess, l.translucentInteractions);
      NoDrawsReady(c, DepthLess);
      ReadyAppend(a, b, d, DepthLess);
      MovesAppend(a, b, d, DepthLess, DepthLess);
      ReadyAppend(a + b, c, d, DepthLess);
    }
  }

  lemma LightReady(cv: Cvars, vp: Rect, l: ViewLight, d: DepthFunc)
    requires WellFormedLight(l)
    ensures ReadyFrom(LightTrace(cv, vp, l, d), d)
  {
    if Skipped(l) {
      NoDrawsReady([], d);
    } else {
      var a, b, c := StencilSetup(cv, vp, l), Passes(cv, l, d), TranslucentPass(cv, l);
      StencilSetupCmds(cv, vp, l);
      NoDrawsReady(a, d);
      KeepsDepth(a, d);
      PassesReady(cv, l, d);
      PassesCmds(cv, l, d);
      KeepsDepth(b, d);
      TranslucentReady(cv, l, d);
      ReadyAppend(a, b, d, d);
      MovesAppend(a, b, d, d, d);
      ReadyAppend(a + b, c, d, d);
    }
  }

  lemma {:induction false} LightsReady(cv: Cvars, vp: Rect, ls: seq<ViewLight>, d: DepthFunc)
    requires WellFormedLights(ls)
    ensures ReadyFrom(LightsTrace(cv, vp, ls, d), d)
    decreases |ls|
  {
    if |ls| == 0 {
      NoDrawsReady([], d);
    } else {
      var d2 := DepthAfter(cv, ls[0], d);
      assert ls[0] in ls;
      assert forall l :: l in ls[1..] ==> l in ls;
      LightReady(cv, vp, ls[0], d);
      LightMoves(cv, vp, ls[0], d);
      LightsReady(cv, vp, ls[1..], d2);
      ReadyAppend(LightTrace(cv, vp, ls[0], d), LightsTrace(cv, vp, ls[1..], d2), d, d2);
    }
  }

  /** Every draw of the frame finds the interaction program active, the
      batch state set with the back end's depth function, its surface's
      arrays and matrix loaded, its uniforms written and its five images on
      units 0 to 4. */
  lemma FrameReady(s: PipeState, cv: Cvars, vp: Rect, ls: seq<ViewLight>)
    requires WellFormedLights(ls)
    ensures Holds(s, FrameTrace(cv, vp, ls, s.depthFunc), ReadyAtDraw)
  {
    var d := s.depthFunc;
    var a := [SelectUnit(BumpUnit), DisableClient(TexCoordArray)];
    var b := LightsTrace(cv, vp, ls, d);
    var c := [StencilFuncAlways, SelectUnit(BumpUnit), EnableClient(TexCoordArray)];
    NoDrawsReady(a, d);
    KeepsDepth(a, d);
    LightsReady(cv, vp, ls, d);
    LightsMoves(cv, vp, ls, d);
    NoDrawsReady(c, FinalDepth(cv, ls, d));
    ReadyAppend(a, b, d, d);
    MovesAppend(a, b, d, d, FinalDepth(cv, ls, d));
    ReadyAppend(a + b, c, d, FinalDepth(cv, ls, d));
  }

  // ---------------------------------------------------------------------
  // Stencil and depth at the draws

  /** The stencil test passes everything and the back end's depth function is LESS. */
  predicate TranslucentState(s: PipeState) {
    s.stencil == StencilAlways && s.depthFunc == DepthLess
  }

  predicate TranslucentAtDraw(s: PipeState, c: Cmd) {
    c.Draw? ==> TranslucentState(s)
  }

  /** Batch commands keep the state a translucent batch draws in. */
  lemma {:induction false} BatchKeepsTranslucentState(s: PipeState, t: seq<Cmd>)
    requires TranslucentState(s)
    requires forall c :: c in t ==> BatchCmd(c)
    ensures Holds(s, t, TranslucentAtDraw)
    decreases |t|
  {
    if |t| > 0 {
      assert t[0] in t;
      assert forall c :: c in t[1..] ==> c in t;
      StepKeepsTranslucentState(s, t[0]);
      BatchKeepsTranslucentState(Step(s, t[0]), t[1..]);
    }
  }

  lemma StepKeepsTranslucentState(s: PipeState, c: Cmd)
    requires TranslucentState(s) && BatchCmd(c)
    ensures TranslucentState(Step(s, c))
  {
  }

  /** Translucent surfaces are never stencil shadowed: each of their draws
      sees the stencil test pass and the back end's depth function LESS. */
  lemma TranslucentDraws(s: PipeState, cv: Cvars, l: ViewLight)
    ensures Holds(s, TranslucentPass(cv, l), TranslucentAtDraw)
  {
    if !cv.skipTranslucent {
      var a := [StencilFuncAlways, SetDepthFunc(DepthLess)];
      var b := BatchTrace(DepthLess, l.translucentInteractions);
      var c := [SetDepthFunc(DepthEqual)];
      HoldsVacuous(s, a, TranslucentAtDraw);
      var s1 := Run(s, a);
      RunTwo(s, StencilFuncAlways, SetDepthFunc(DepthLess));
      BatchCmds(DepthLess, l.translucentInteractions);
      BatchKeepsTranslucentState(s1, b);
      HoldsVacuous(Run(s1, b), c, TranslucentAtDraw);
      HoldsAppend3(s, a, b, c, TranslucentAtDraw);
    }
  }

  /** Combined with readiness: the depth test of each translucent draw is LESS. */
  predicate LessAtDraw(s: PipeState, c: Cmd) {
    c.Draw? ==> s.glDepth == DepthLess && s.stencil == StencilAlways
  }

  lemma TranslucentDrawsLess(s: PipeState, cv: Cvars, l: ViewLight)
    requires WellFormedSurfaces(l.translucentInteractions)
    ensures Holds(s, TranslucentPass(cv, l), LessAtDraw)
  {
    TranslucentDraws(s, cv, l);
    TranslucentReady(cv, l, s.depthFunc);
    HoldsConj(s, TranslucentPass(cv, l), TranslucentAtDraw, ReadyAtDraw, LessAtDraw);
  }

  predicate StencilPassesAtDraw(s: PipeState, c: Cmd) {
    c.Draw? ==> s.stencil == StencilAlways
  }

  predicate StencilPasses(s: PipeState) {
    s.stencil == StencilAlways
  }

  /** Commands that cannot make the stencil test fail. */
  predicate KeepsStencilPassing(c: Cmd) {
    c.ShadowPass? ==> |c.casters| == 0
  }

  lemma {:induction false} StencilStaysPassing(s: PipeState, t: seq<Cmd>)
    requires StencilPasses(s)
    requires forall c :: c in t ==> KeepsStencilPassing(c)
    ensures Holds(s, t, StencilPassesAtDraw) && StencilPasses(Run(s, t))
    decreases |t|
  {
    if |t| > 0 {
      assert t[0] in t;
      assert forall c :: c in t[1..] ==> c in t;
      StepKeepsStencil(s, t[0]);
      StencilStaysPassing(Step(s, t[0]), t[1..]);
    }
  }

  lemma StepKeepsStencil(s: PipeState, c: Cmd)
    requires StencilPasses(s) && KeepsStencilPassing(c)
    ensures StencilPasses(Step(s, c))
  {
  }

  /** A light without shadows lets the stencil test pass at every draw. */
  lemma UnshadowedLightDraws(s: PipeState, cv: Cvars, vp: Rect, l: ViewLight, depth: DepthFunc)
    requires !HasShadows(l)
    ensures Holds(s, LightTrace(cv, vp, l, depth), StencilPassesAtDraw)
  {
    if !Skipped(l) {
      var a, b, t := StencilSetup(cv, vp, l), Passes(cv, l, depth), TranslucentPass(cv, l);
      assert a == [StencilFuncAlways];
      RunOne(s, StencilFuncAlways);
      var s1 := Run(s, a);
      PassesCmds(cv, l, depth);
      TranslucentCmds(cv, l);
      StencilStaysPassing(s1, b);
      StencilStaysPassing(Run(s1, b), t);
      HoldsVacuous(s, a, StencilPassesAtDraw);
      HoldsAppend3(s, a, b, t, StencilPassesAtDraw);
    }
  }

  // ---------------------------------------------------------------------
  // Frame entry and exit

  /** After the loop: the stencil test passes, unit 0 is selected and
      tracked, and its texture-coordinate array is enabled again. */
  lemma FrameEnd(s: PipeState, cv: Cvars, vp: Rect, ls: seq<ViewLight>, depth: DepthFunc)
    ensures var r := Run(s, FrameTrace(cv, vp, ls, depth));
      r.stencil == StencilAlways && r.texCoordArray && r.tmu == BumpUnit && r.active == BumpUnit
  {
    var a := [SelectUnit(BumpUnit), DisableClient(TexCoordArray)] + LightsTrace(cv, vp, ls, depth);
    var c := [StencilFuncAlways, SelectUnit(BumpUnit), EnableClient(TexCoordArray)];
    RunAppend(s, a, c);
    RunThree(Run(s, a), StencilFuncAlways, SelectUnit(BumpUnit), EnableClient(TexCoordArray));
  }

  lemma {:induction false} TexCoordStaysOff(s: PipeState, t: seq<Cmd>)
    requires !s.texCoordArray
    requires forall c :: c in t ==> KeepsTexCoord(c)
    ensures Holds(s, t, TexCoordOffAtDraw) && !Run(s, t).texCoordArray
    decreases |t|
  {
    if |t| > 0 {
      assert t[0] in t;
      assert forall c :: c in t[1..] ==> c in t;
      StepKeepsTexCoordOff(s, t[0]);
      TexCoordStaysOff(Step(s, t[0]), t[1..]);
    }
  }

  lemma StepKeepsTexCoordOff(s: PipeState, c: Cmd)
    requires !s.texCoordArray && KeepsTexCoord(c)
    ensures !Step(s, c).texCoordArray
  {
  }

  predicate TexCoordOffAtDraw(s: PipeState, c: Cmd) {
    c.Draw? ==> !s.texCoordArray
  }

  /** The texture-coordinate array disabled on entry stays off for every draw. */
  lemma FrameDrawsWithoutTexCoord(s: PipeState, cv: Cvars, vp: Rect, ls: seq<ViewLight>, depth: DepthFunc)
    ensures Holds(s, FrameTrace(cv, vp, ls, depth), TexCoordOffAtDraw)
  {
    var a := [SelectUnit(BumpUnit), DisableClient(TexCoordArray)];
    var b := LightsTrace(cv, vp, ls, depth);
    var c := [StencilFuncAlways, SelectUnit(BumpUnit), EnableClient(TexCoordArray)];
    HoldsVacuous(s, a, TexCoordOffAtDraw);
    RunTwo(s, SelectUnit(BumpUnit), DisableClient(TexCoordArray));
    LightsCmds(cv, vp, ls, depth);
    TexCoordStaysOff(Run(s, a), b);
    HoldsVacuous(Run(Run(s, a), b), c, TexCoordOffAtDraw);
    HoldsAppend3(s, a, b, c, TexCoordOffAtDraw);
  }
}

=== FILE: pipeline.dfy ===
/** The pipeline state the light loop threads through its commands, and the
    interpreter that runs a trace against it.  Only the state the loop sets
    or relies on is tracked; pixels, buffers and shader results are not. */
module Pipeline {
  import opened GlTypes

  datatype PipeState = PipeState(
    tmu: int,                             // back end's record of the selected texture unit, -1 when unknown
    active: int,                          // the GL active texture unit
    bound: map<int, Image>,               // image bound on each texture unit
    program: Program,                     // active shader program
    attribs: set<int>,                    // enabled generic attribute arrays
    colorArray: bool,                     // colour client array enabled
    texCoordArray: bool,                  // texture-coordinate client array enabled
    pointers: map<VertexArray, nat>,      // surface whose vertices each array points into
    modelMatrix: int,                     // surface whose model matrix the interaction program holds
    uniforms: map<UniformName, UValue>,   // per-draw uniforms the interaction program holds
    glDepth: DepthFunc,                   // depth test passed to the last blend/depth state change
    depthFunc: DepthFunc,                 // back end's depth function for upcoming batches
    stencil: StencilFunc,
    scissorRect: Rect,                    // back end's current scissor rectangle
    scissorBox: Box)                      // last scissor box given to GL

  /** The image on unit `u`; a unit never bound holds the null image. */
  function BoundOn(s: PipeState, u: int): Image {
    if u in s.bound then s.bound[u] else NullImage
  }

  /** The surface array `a` points into, or -1 when it was never set. */
  function PointerOf(s: PipeState, a: VertexArray): int {
    if a in s.pointers then s.pointers[a] else -1
  }

  /** The effect of one command.  Uniform writes reach the interaction
      program's table only while that program is active.  A shadow pass
      over no casters leaves everything as it was; otherwise only the
      stencil comparison it leaves behind is tracked. */
  function Step(s: PipeState, c: Cmd): PipeState {
    match c
    case SelectUnitNoClient(u) => s.(tmu := u, active := u)
    case SelectUnit(u) => s.(tmu := u, active := u)
    case ForgetUnit => s.(tmu := -1)
    case Bind(img) => s.(bound := s.bound[s.active := img])
    case BindNull => s.(bound := s.bound[s.active := NullImage])
    case UseProgram(p) => s.(program := p)
    case EnableAttrib(i) => s.(attribs := s.attribs + {i})
    case DisableAttrib(i) => s.(attribs := s.attribs - {i})
    case EnableClient(a) =>
      if a == ColorArray then s.(colorArray := true) else s.(texCoordArray := true)
    case DisableClient(a) =>
      if a == ColorArray then s.(colorArray := false) else s.(texCoordArray := false)
    case GLState(d) => s.(glDepth := d)
    case Pointer(a, id) => s.(pointers := s.pointers[a := id])
    case ModelMatrix(id) =>
      if s.program == InteractionProgram then s.(modelMatrix := id) else s
    case Uniform(n, v) =>
      if s.program == InteractionProgram then s.(uniforms := s.uniforms[n := v]) else s
    case Draw(_) => s
    case ShadowPass(casters) =>
      if |casters| == 0 then s else s.(stencil := StencilShadowTest)
    case RecordScissor(r) => s.(scissorRect := r)
    case Scissor(b) => s.(scissorBox := b)
    case ClearStencil => s
    case StencilFuncAlways => s.(stencil := StencilAlways)
    case SetDepthFunc(d) => s.(depthFunc := d)
  }

  /** The state after running trace `t` from `s`. */
  function Run(s: PipeState, t: seq<Cmd>): PipeState
    decreases |t|
  {
    if |t| == 0 then s else Run(Step(s, t[0]), t[1..])
  }

  lemma {:induction false} RunAppend(s: PipeState, a: seq<Cmd>, b: seq<Cmd>)
    ensures Run(s, a + b) == Run(Run(s, a), b)
    decreases |a|
  {
    if |a| == 0 {
      assert a + b == b;
    } else {
      assert (a + b)[0] == a[0];
      assert (a + b)[1..] == a[1..] + b;
      RunAppend(Step(s, a[0]), a[1..], b);
    }
  }

  lemma RunOne(s: PipeState, x: Cmd)
    ensures Run(s, [x]) == Step(s, x)
  {
    assert [x][1..] == [];
  }

  lemma RunTwo(s: PipeState, x: Cmd, y: Cmd)
    ensures Run(s, [x, y]) == Step(Step(s, x), y)
  {
    var t := [x, y];
    assert t[1..] == [y];
    RunOne(Step(s, x), y);
  }

  lemma RunThree(s: PipeState, x: Cmd, y: Cmd, z: Cmd)
    ensures Run(s, [x, y, z]) == Step(Step(Step(s, x), y), z)
  {
    var t := [x, y, z];
    assert t[1..] == [y, z];
    RunTwo(Step(s, x), y, z);
  }

  lemma RunFour(s: PipeState, w: Cmd, x: Cmd, y: Cmd, z: Cmd)
    ensures Run(s, [w, x, y, z]) == Step(Step(Step(Step(s, w), x), y), z)
  {
    var t := [w, x, y, z];
    assert t[1..] == [x, y, z];
    RunThree(Step(s, w), x, y, z);
  }

  lemma RunFive(s: PipeState, v: Cmd, w: Cmd, x: Cmd, y: Cmd, z: Cmd)
    ensures Run(s, [v, w, x, y, z]) == Step(Step(Step(Step(Step(s, v), w), x), y), z)
  {
    var t := [v, w, x, y, z];
    assert t[1..] == [w, x, y, z];
    RunFour(Step(s, v), w, x, y, z);
  }

  lemma RunAppend3(s: PipeState, a: seq<Cmd>, b: seq<Cmd>, c: seq<Cmd>)
    ensures Run(s, a + b + c) == Run(Run(Run(s, a), b), c)
  {
    RunAppend(s, a, b);
    RunAppend(s, a + b, c);
  }

  /** `P` holds of every command of `t` together with the state it is issued in. */
  predicate Holds(s: PipeState, t: seq<Cmd>, P: (PipeState, Cmd) -> bool)
    decreases |t|
  {
    |t| == 0 || (P(s, t[0]) && Holds(Step(s, t[0]), t[1..], P))
  }

  lemma {:induction false} HoldsAppend(s: PipeState, a: seq<Cmd>, b: seq<Cmd>, P: (PipeState, Cmd) -> bool)
    ensures Holds(s, a + b, P) <==> Holds(s, a, P) && Holds(Run(s, a), b, P)
    decreases |a|
  {
    if |a| == 0 {
      assert a + b == b;
    } else {
      assert (a + b)[0] == a[0];
      assert (a + b)[1..] == a[1..] + b;
      HoldsAppend(Step(s, a[0]), a[1..], b, P);
    }
  }

  lemma HoldsAppend3(s: PipeState, a: seq<Cmd>, b: seq<Cmd>, c: seq<Cmd>, P: (PipeState, Cmd) -> bool)
    requires Holds(s, a, P) && Holds(Run(s, a), b, P) && Holds(Run(Run(s, a), b), c, P)
    ensures Holds(s, a + b + c, P)
  {
    HoldsAppend(s, a, b, P);
    RunAppend(s, a, b);
    HoldsAppend(s, a + b, c, P);
  }

  /** `P` holds at every command of a trace that contains no command `P` can reject. */
  lemma {:induction false} HoldsVacuous(s: PipeState, t: seq<Cmd>, P: (PipeState, Cmd) -> bool)
    requires forall c, st :: c in t ==> P(st, c)
    ensures Holds(s, t, P)
    decreases |t|
  {
    if |t| > 0 {
      assert t[0] in t;
      assert forall c :: c in t[1..] ==> c in t;
      HoldsVacuous(Step(s, t[0]), t[1..], P);
    }
  }

  /** Two properties that hold at every command give any property they jointly imply. */
  lemma {:induction false} HoldsConj(s: PipeState, t: seq<Cmd>, P: (PipeState, Cmd) -> bool, Q: (PipeState, Cmd) -> bool, R: (PipeState, Cmd) -> bool)
    requires Holds(s, t, P) && Holds(s, t, Q)
    requires forall st, c :: P(st, c) && Q(st, c) ==> R(st, c)
    ensures Holds(s, t, R)
    decreases |t|
  {
    if |t| > 0 {
      HoldsConj(Step(s, t[0]), t[1..], P, Q, R);
    }
  }

  /** The parts of the state that only the light controller changes. */
  predicate SameControllerState(a: PipeState, b: PipeState) {
    && a.depthFunc == b.depthFunc
    && a.stencil == b.stencil
    && a.texCoordArray == b.texCoordArray
    && a.scissorRect == b.scissorRect
    && a.scissorBox == b.scissorBox
  }
}

=== FILE: shader_init.dfy ===
/** Loading, linking and validating the two GLSL programs, binding their
    samplers, and the flag that lets the renderer take the GLSL path.  What
    the driver answers (whether a program linked, whether it validated) is an
    input; shader sources are opaque strings. */
module ShaderInit {
  import opened GlTypes
  import opened Pipeline
  import opened InteractionDraw
  import opened InteractionBatch

  datatype Option<T> = None | Some(value: T)

  // ---------------------------------------------------------------------
  // Loading one shader

  datatype ShaderKind = VertexShader | FragmentShader | OtherShader

  /** A compiled shader object and the source it was compiled from. */
  datatype Shader = Shader(kind: ShaderKind, source: string)

  /** Shader files live under this directory of the virtual file system. */
  function ShaderPath(name: string): string {
    "gl2progs/" + name
  }

  /** The text a C string holds: everything before the first NUL character.
      The loader copies the file with `strcpy` and hands it to the compiler
      without a length, so a NUL inside the file ends the source there. */
  function CString(t: string): (r: string)
    ensures r <= t
    ensures '\0' !in r
    ensures |r| < |t| ==> t[|r|] == '\0'
    decreases |t|
  {
    if |t| == 0 || t[0] == '\0' then [] else [t[0]] + CString(t[1..])
  }

  /** A text without NUL is kept whole, and a prefix that has no NUL and is
      followed by one is exactly what is kept. */
  lemma {:induction false} CStringExact(t: string, r: string)
    ensures ('\0' !in t) ==> CString(t) == t
    ensures (r <= t && '\0' !in r && (|r| < |t| ==> t[|r|] == '\0')) ==> CString(t) == r
    decreases |t|
  {
    if |t| > 0 && t[0] != '\0' {
      assert '\0' !in t ==> '\0' !in t[1..] by {
        if '\0' !in t { assert forall i :: 0 <= i < |t[1..]| ==> t[1..][i] == t[i + 1]; }
      }
      if r <= t && '\0' !in r && (|r| < |t| ==> t[|r|] == '\0') {
        assert |r| > 0;
        assert r[0] == t[0];
        CStringExact(t[1..], r[1..]);
        assert r == [t[0]] + r[1..];
      } else {
        CStringExact(t[1..], t[1..]);
      }
    }
  }

  /** The file is read even without a GL context; a shader object is made
      only when the file exists, the context is up and the kind is one of the
      two the loader knows.  Its source is the file's text up to the first NUL. */
  function LoadShader(files: map<string, string>, glInitialized: bool, name: string, kind: ShaderKind): (r: Option<Shader>)
    ensures r.Some? <==> ShaderPath(name) in files && glInitialized && kind != OtherShader
    ensures r.Some? ==> r.value == Shader(kind, CString(files[ShaderPath(name)]))
  {
    var path := ShaderPath(name);
    if path !in files then None
    else if !glInitialized then None
    else match kind
      case VertexShader => Some(Shader(VertexShader, CString(files[path])))
      case FragmentShader => Some(Shader(FragmentShader, CString(files[path])))
      case OtherShader => None
  }

  /** A NUL inside a shader file ends the source the compiler sees. */
  lemma NulEndsSource()
    ensures LoadShader(map[ShaderPath("interaction.vert") := "ab\0cd"], true, "interaction.vert", VertexShader)
         == Some(Shader(VertexShader, "ab"))
  {
    CStringExact("ab\0cd", "ab");
  }

  /** A missing file gives no shader whatever the context; no context gives
      no shader whatever the files. */
  lemma NoShaderWithout(files: map<string, string>, glInitialized: bool, name: string, kind: ShaderKind)
    ensures ShaderPath(name) !in files ==> LoadShader(files, glInitialized, name, kind) == None
    ensures !glInitialized ==> LoadShader(files, glInitialized, name, kind) == None
  {
  }

  // ---------------------------------------------------------------------
  // Linking

  datatype LinkCall =
    | CreateProgram
    | AttachShader(kind: ShaderKind)
    | BindAttrib(slot: int, name: string)
    | LinkProgram

  /** The interaction program reads the four per-vertex attribute arrays;
      the shadow program reads only positions. */
  function NeedsAttributes(p: Program): bool {
    p == InteractionProgram
  }

  /** The attribute bindings a program gets before it is linked. */
  function AttribBindings(): seq<LinkCall> {
    [ BindAttrib(TexCoordSlot, "attr_TexCoord"), BindAttrib(TangentSlot, "attr_Tangent"),
      BindAttrib(BitangentSlot, "attr_Bitangent"), BindAttrib(NormalSlot, "attr_Normal") ]
  }

  function LinkCalls(needsAttributes: bool): seq<LinkCall> {
    [CreateProgram, AttachShader(VertexShader), AttachShader(FragmentShader)]
    + (if needsAttributes then AttribBindings() else [])
    + [LinkProgram]
  }

  /** The attribute slots bound by a call sequence. */
  function BoundSlots(calls: seq<LinkCall>): set<int> {
    set c | c in calls && c.BindAttrib? :: c.slot
  }

  /** The attribute slots enabled by a trace. */
  function EnabledSlots(t: seq<Cmd>): set<int> {
    set c | c in t && c.EnableAttrib? :: c.slot
  }

  /** Linking binds slots 8 to 11, before the link itself, exactly when
      attributes are needed: for the interaction program and not for the
      shadow program. */
  lemma LinkBindsAttributes(p: Program)
    ensures BoundSlots(LinkCalls(NeedsAttributes(p))) ==
      if p == InteractionProgram then {TexCoordSlot, TangentSlot, BitangentSlot, NormalSlot} else {}
    ensures LinkCalls(NeedsAttributes(p))[|LinkCalls(NeedsAttributes(p))| - 1] == LinkProgram
  {
    var calls := LinkCalls(NeedsAttributes(p));
    if p == InteractionProgram {
      var b := AttribBindings();
      assert b[0] in calls && b[1] in calls && b[2] in calls && b[3] in calls;
    }
  }

  /** The slots bound when the interaction program is linked are exactly the
      generic arrays a batch enables before drawing with it. */
  lemma LinkedSlotsAreEnabled(depth: DepthFunc)
    ensures BoundSlots(LinkCalls(NeedsAttributes(InteractionProgram))) == EnabledSlots(SetupTrace(depth))
  {
    LinkBindsAttributes(InteractionProgram);
    var t := SetupTrace(depth);
    assert t[2] == EnableAttrib(TexCoordSlot) && t[3] == EnableAttrib(TangentSlot);
    assert t[4] == EnableAttrib(BitangentSlot) && t[5] == EnableAttrib(NormalSlot);
  }

  // ---------------------------------------------------------------------
  // Samplers

  datatype Sampler =
    | BumpTexture | LightFalloffTexture | LightProjectionTexture
    | DiffuseTexture | SpecularTexture | SpecularFalloffTexture

  /** The unit each sampler of the interaction program is bound to, in the order they are set. */
  function SamplerBindings(): seq<(Sampler, int)> {
    [ (BumpTexture, 0), (LightFalloffTexture, 1), (LightProjectionTexture, 2),
      (DiffuseTexture, 3), (SpecularTexture, 4), (SpecularFalloffTexture, 5) ]
  }

  /** The unit a sampler was bound to. */
  function SamplerUnit(n: Sampler): (u: int)
    ensures (n, u) in SamplerBindings()
  {
    match n
    case BumpTexture => 0
    case LightFalloffTexture => 1
    case LightProjectionTexture => 2
    case DiffuseTexture => 3
    case SpecularTexture => 4
    case SpecularFalloffTexture => 5
  }

  /** The image a sampler should read for a sub-draw. */
  function SamplerImage(din: DrawInteraction, n: Sampler): Image {
    match n
    case BumpTexture => din.bumpImage
    case LightFalloffTexture => din.lightFalloffImage
    case LightProjectionTexture => din.lightImage
    case DiffuseTexture => din.diffuseImage
    case SpecularTexture => din.specularImage
    case SpecularFalloffTexture => SpecularTableImage
  }

  /** Each sampler is bound once, and no two samplers share a unit. */
  lemma SamplerBindingsDistinct()
    ensures forall i, j :: 0 <= i < j < |SamplerBindings()| ==>
      SamplerBindings()[i].0 != SamplerBindings()[j].0 && SamplerBindings()[i].1 != SamplerBindings()[j].1
  {
  }

  /** The sampler units agree with the units the draw loop binds: at every
      draw, each sampler finds the image meant for it. */
  lemma SamplersSeeTheirImages(s: PipeState, din: DrawInteraction, n: Sampler)
    requires Ready(s, din)
    ensures BoundOn(s, SamplerUnit(n)) == SamplerImage(din, n)
  {
  }

  // ---------------------------------------------------------------------
  // Initialisation

  /** What the driver reports for a program: whether it linked, and whether
      it would validate if asked. */
  datatype Outcome = Outcome(links: bool, validates: bool)

  /** The initialisation goes on with a program unless it failed to link
      and then also failed validation. */
  predicate Usable(o: Outcome) {
    o.links || o.validates
  }

  datatype InitStep =
    | Load(program: Program, kind: ShaderKind)
    | Link(program: Program, needsAttributes: bool)
    | Validate(program: Program)
    | LookupUniforms(program: Program)      // all uniform locations, then the sampler units
    | LookupLightOrigin(program: Program)   // the one uniform of the shadow program

  datatype InitResult = InitResult(ok: bool, steps: seq<InitStep>)

  /** Validation is only asked for after a failed link; the program's
      uniforms are looked up when it is usable. */
  function ProgramSteps(p: Program, o: Outcome): seq<InitStep> {
    [Load(p, VertexShader), Load(p, FragmentShader), Link(p, NeedsAttributes(p))]
    + (if !o.links then [Validate(p)] else [])
    + (if Usable(o) then [if p == InteractionProgram then LookupUniforms(p) else LookupLightOrigin(p)] else [])
  }

  /** The interaction program first, then the shadow program; a program
      that is not usable ends the initialisation with failure. */
  function InitShaders(inter: Outcome, shadow: Outcome): (r: InitResult)
    ensures r.ok <==> Usable(inter) && Usable(shadow)
  {
    var a := ProgramSteps(InteractionProgram, inter);
    if !Usable(inter) then InitResult(false, a)
    else InitResult(Usable(shadow), a + ProgramSteps(ShadowProgram, shadow))
  }

  /** Validation happens right after a link that failed, and only then. */
  lemma ValidateOnlyAfterFailedLink(inter: Outcome, shadow: Outcome, i: int)
    requires 0 <= i < |InitShaders(inter, shadow).steps|
    requires InitShaders(inter, shadow).steps[i].Validate?
    ensures var t := InitShaders(inter, shadow).steps;
      var p := t[i].program;
      && i > 0 && t[i - 1] == Link(p, NeedsAttributes(p))
      && !(if p == InteractionProgram then inter else shadow).links
  {
    var a := ProgramSteps(InteractionProgram, inter);
    if i >= |a| {
      var b := ProgramSteps(ShadowProgram, shadow);
      assert InitShaders(inter, shadow).steps == a + b;
      assert b[i - |a|].Validate?;
    }
  }

  /** A failed link is always followed by validation. */
  lemma FailedLinkValidated(inter: Outcome, shadow: Outcome)
    ensures !inter.links ==> Validate(InteractionProgram) in InitShaders(inter, shadow).steps
    ensures Usable(inter) && !shadow.links ==> Validate(ShadowProgram) in InitShaders(inter, shadow).steps
  {
    var a := ProgramSteps(InteractionProgram, inter);
    if !inter.links {
      assert a[3] == Validate(InteractionProgram);
    }
    if Usable(inter) && !shadow.links {
      var b := ProgramSteps(ShadowProgram, shadow);
      assert b[3] == Validate(ShadowProgram);
      assert (a + b)[|a| + 3] == Validate(ShadowProgram);
    }
  }

  /** The interaction program's uniforms are looked up exactly when it is usable. */
  lemma LookupWhenUsable(inter: Outcome, shadow: Outcome)
    ensures LookupUniforms(InteractionProgram) in InitShaders(inter, shadow).steps <==> Usable(inter)
  {
    var a := ProgramSteps(InteractionProgram, inter);
    var b := ProgramSteps(ShadowProgram, shadow);
    assert forall st :: st in b ==> st.program == ShadowProgram;
    if Usable(inter) {
      assert a[|a| - 1] == LookupUniforms(InteractionProgram);
      assert InitShaders(inter, shadow).steps == a + b;
    }
  }

  /** The shadow program is loaded only once the interaction program is
      usable, and its uniform looked up only when it is usable itself. */
  lemma ShadowAfterInteraction(inter: Outcome, shadow: Outcome)
    ensures Load(ShadowProgram, VertexShader) in InitShaders(inter, shadow).steps <==> Usable(inter)
    ensures LookupLightOrigin(ShadowProgram) in InitShaders(inter, shadow).steps <==> Usable(inter) && Usable(shadow)
  {
    var a := ProgramSteps(InteractionProgram, inter);
    var b := ProgramSteps(ShadowProgram, shadow);
    assert forall st :: st in a ==> st.program == InteractionProgram;
    if Usable(inter) {
      assert InitShaders(inter, shadow).steps == a + b;
      assert b[0] == Load(ShadowProgram, VertexShader);
      if Usable(shadow) {
        assert b[|b| - 1] == LookupLightOrigin(ShadowProgram);
      }
    }
  }

  // ---------------------------------------------------------------------
  // The GLSL path flag

  datatype GlConfig = GlConfig(glslAvailable: bool, allowGLSLPath: bool)

  /** Reloading the programs re-runs the initialisation, reports a failure
      only in the log, and then allows the GLSL path. */
  function ReloadPrograms(cfg: GlConfig, inter: Outcome, shadow: Outcome): (r: (GlConfig, InitResult))
    ensures r.0.allowGLSLPath && r.0.glslAvailable == cfg.glslAvailable
    ensures r.1.ok <==> Usable(inter) && Usable(shadow)
  {
    (cfg.(allowGLSLPath := true), InitShaders(inter, shadow))
  }

  /** Start-up disallows the GLSL path whether or not GLSL is available. */
  function GlslInit(cfg: GlConfig): (r: GlConfig)
    ensures !r.allowGLSLPath && r.glslAvailable == cfg.glslAvailable
  {
    cfg.(allowGLSLPath := false)
  }

  /** The flag after a reload does not depend on whether the programs came up,
      and start-up followed by a reload always ends with the path allowed. */
  lemma ReloadAllowsRegardless(cfg: GlConfig, i1: Outcome, s1: Outcome, i2: Outcome, s2: Outcome)
    ensures ReloadPrograms(cfg, i1, s1).0 == ReloadPrograms(cfg, i2, s2).0
    ensures ReloadPrograms(GlslInit(cfg), i1, s1).0 == cfg.(allowGLSLPath := true)
  {
  }
}

=== FILE: traces.dfy ===
/** Order-preserving projections of command traces. */
module Traces {

  /** The elements of `t` that satisfy `keep`, in their original order. */
  function Filter<T>(t: seq<T>, keep: T -> bool): (r: seq<T>)
    ensures |r| <= |t|
    decreases |t|
  {
    if |t| == 0 then []
    else if keep(t[0]) then [t[0]] + Filter(t[1..], keep)
    else Filter(t[1..], keep)
  }

  lemma {:induction false} FilterAppend<T>(a: seq<T>, b: seq<T>, keep: T -> bool)
    ensures Filter(a + b, keep) == Filter(a, keep) + Filter(b, keep)
    decreases |a|
  {
    if |a| == 0 {
      assert a + b == b;
    } else {
      assert (a + b)[0] == a[0];
      assert (a + b)[1..] == a[1..] + b;
      FilterAppend(a[1..], b, keep);
    }
  }

  /** A trace none of whose elements is kept projects to nothing. */
  lemma {:induction false} FilterNone<T>(t: seq<T>, keep: T -> bool)
    requires forall x :: x in t ==> !keep(x)
    ensures Filter(t, keep) == []
    decreases |t|
  {
    if |t| > 0 {
      assert t[0] in t;
      assert forall x :: x in t[1..] ==> x in t;
      FilterNone(t[1..], keep);
    }
  }

  /** A trace all of whose elements are kept projects to itself. */
  lemma {:induction false} FilterAll<T>(t: seq<T>, keep: T -> bool)
    requires forall x :: x in t ==> keep(x)
    ensures Filter(t, keep) == t
    decreases |t|
  {
    if |t| > 0 {
      assert t[0] in t;
      assert forall x :: x in t[1..] ==> x in t;
      FilterAll(t[1..], keep);
      assert [t[0]] + t[1..] == t;
    }
  }

  /** Two tests that agree on every element of `t` project it alike. */
  lemma {:induction false} FilterSame<T>(t: seq<T>, keep: T -> bool, keep2: T -> bool)
    requires forall x :: x in t ==> keep(x) == keep2(x)
    ensures Filter(t, keep) == Filter(t, keep2)
    decreases |t|
  {
    if |t| > 0 {
      assert t[0] in t;
      assert forall x :: x in t[1..] ==> x in t;
      FilterSame(t[1..], keep, keep2);
    }
  }

  lemma FilterAppend3<T>(a: seq<T>, b: seq<T>, c: seq<T>, keep: T -> bool)
    ensures Filter(a + b + c, keep) == Filter(a, keep) + Filter(b, keep) + Filter(c, keep)
  {
    FilterAppend(a + b, c, keep);
    FilterAppend(a, b, keep);
  }

  lemma FilterAppend5<T>(a: seq<T>, b: seq<T>, c: seq<T>, d: seq<T>, e: seq<T>, keep: T -> bool)
    ensures Filter(a + b + c + d + e, keep)
         == Filter(a, keep) + Filter(b, keep) + Filter(c, keep) + Filter(d, keep) + Filter(e, keep)
  {
    FilterAppend(a + b + c + d, e, keep);
    FilterAppend(a + b + c, d, keep);
    FilterAppend3(a, b, c, keep);
  }
}
